=== FILE: README.md ===
# Real-time audio core of docutalk, in Dafny

This project models the audio path of docutalk, a browser application for
a spoken conversation with a remote agent about an uploaded document. The
model covers four parts:

- **Frame codec** (`src/utils/audio.ts`). `floatTo16BitPCM` clamps each
  sample to [-1, 1], scales it by 32768 below zero and by 32767 otherwise,
  and stores it as a little-endian 16-bit integer. `base64Encode` turns the
  bytes into a binary string and hands it to `btoa`. The decode half of
  `AudioStreamer.addChunk` runs `atob`, reads the bytes back with
  `charCodeAt`, views them as an `Int16Array`, and divides each value by
  32768. Modules `Bytes`, `Base64` and `AudioCodec`.
- **Playback scheduler** (`AudioStreamer`). It holds an output context (or
  none), a `nextStartTime` cursor and a sample rate. Each decoded chunk
  starts at the later of the cursor and the output clock, and the cursor
  moves to the chunk's end. Module `Playback`.
- **Microphone acquisition** (`getMicrophoneStream`). It first asks for
  echo cancellation, noise suppression and automatic gain. If that request
  is rejected, it asks exactly once more for plain audio. Module
  `Microphone`.
- **Session lifecycle** (the `App` component in `src/App.tsx`). The React
  state and refs become one immutable `State`. Each handler and each
  session callback becomes one pure transition. A transition returns the
  next state and its outward effects, in order: disconnecting the
  processor, stopping the tracks, closing a context or the session,
  sending a frame, scheduling a buffer. Module `App`, with its properties
  in `AppProperties`.

Outside inputs are parameters:

- the output clock (`now`);
- `getUserMedia`, an oracle from the requested constraints to a stream or a
  DOM error;
- whether `navigator.mediaDevices` exists;
- the session object that `live.connect` resolves to (`LiveSession`);
- the messages the session delivers.

The callbacks of one connect attempt carry what their closures captured.
That is the acquired stream and the `isMuted` value at the time of the
call (`Attempt`).

Samples and times are exact `real`s. The source's ECMAScript conversions
are written out. `DataView.setInt16` applies ToInt16: it truncates toward
zero, then wraps modulo 2^16. The model proves that the wrap never fires.

Some of the code's behaviour differs from what its own comments, its
interface text or a reader would expect. The model follows the code, and
the lemmas below show each difference:

- One might expect a float to come back from the wire within one step
  (1/32768). Below zero it does. From zero up the error is under two
  steps, because `floatTo16BitPCM` scales by 32767 there while `addChunk`
  divides by 32768 (`QuantizationError`). `OneStepBoundFailsAboveZero`
  gives a sample that plays back almost 1.5 steps low.
- One might expect encode∘decode∘encode to reproduce the bytes. That holds
  for values at or below zero. A positive value comes back one lower
  (`Requantize`). The integer-domain round trip that does hold is
  bytes → `Int16Array` (`PcmRoundTrip`).
- `onmessage` tests `interrupted` under the comment "Handle interruption"
  (`src/App.tsx:151-153`), but the branch is empty. Queued playback is not
  flushed, and the flag changes nothing (`InterruptionIsIgnored`).
- While muted, the interface tells the user to click the volume icon to
  speak again (`src/App.tsx:403`). The `onaudioprocess` handler, however,
  reads the `isMuted` of its own connect call, so the button does not reach
  a running capture (`MuteToggleDoesNotReachCapture`,
  `MutedConnectStaysSilent`).
- `resetApp` closes the session but never clears `sessionRef`. After a
  reset and a new connect, frames captured between `onopen` and the
  resolution of `live.connect` go to the old, closed session
  (`ReconnectSendsToPreviousSession`), and a second reset closes it again
  (`ResetTwiceClosesSessionTwice`).
- `AudioStreamer.stop` is called only when the component unmounts
  (`Unmount`). Neither `resetApp` nor `onclose` stops playback, so the
  output context stays open after a reset. `start` replaces a held context
  without closing it, so every reconnect leaves the previous output context
  open, and unmount closes only the latest one. The model keeps the context
  as a flag and cannot show this leak (see "Left out").
- `addChunk` can throw. `atob` rejects malformed text, `Int16Array` rejects
  an odd byte length, and `createBuffer` rejects a zero-length buffer
  (`DecodeChunk`, `DanglingLetterChunkThrows`, `OddLengthChunkThrows`). The
  throw ends the `onmessage` handler. Only the payloads before the first
  unplayable one are scheduled, and the later parts and the text append
  are skipped (`ForwardAudioStopsAtFirstUnplayable`,
  `ThrowingMessageSkipsRest`).

## Model

| member | source | states |
|---|---|---|
| Bytes.CharCodesOfBinaryString | src/utils/audio.ts:82-84 | `String.fromCharCode` per byte followed by `charCodeAt` per character gives the bytes back |
| Bytes.BinaryStringOfCharCodes | src/utils/audio.ts:27-31 | `charCodeAt` per character of a binary string followed by `String.fromCharCode` per code gives the string back |
| Base64.Btoa | src/utils/audio.ts:85 | `btoa` succeeds exactly on strings whose character codes are all below 256, and its output has 4·⌈n/3⌉ characters |
| Base64.Encode | src/utils/audio.ts:85 | the RFC 4648 section 4 text of n bytes has 4·⌈n/3⌉ characters, all from the alphabet or `=` |
| Base64.Atob | src/utils/audio.ts:26 | whenever `atob` succeeds its result is a binary string (every code below 256); `Base64.DecodeEncode`, `Base64.AtobBtoa` and the `Base64.DecodeRejects` lemmas pin when it succeeds and what it returns |
| Base64.DecodeEncode | src/utils/audio.ts:26 | the forgiving-base64 decode that `atob` runs recovers exactly the bytes of any standard base64 encoding |
| Base64.AtobBtoa | src/utils/audio.ts:26-30 | `atob` undoes `btoa` on every string `btoa` accepts |
| Base64.DecodeRejectsForeignCharacter | src/utils/audio.ts:26 | `atob` fails when the input holds a character that is not in the alphabet, not whitespace and not `=` |
| Base64.DecodeRejectsDanglingLetter | src/utils/audio.ts:26 | `atob` fails on letters whose count leaves one over in the last group of four |
| AudioCodec.Clamp | src/utils/audio.ts:73 | the clamped sample lies in [-1, 1], equals the input inside that range, and is the nearer bound outside it |
| AudioCodec.ToInt16 | src/utils/audio.ts:74 | the `setInt16` conversion lies in the int16 range, agrees with the truncated value modulo 2^16, and equals it when that value fits |
| AudioCodec.Quantize | src/utils/audio.ts:73-74 | -1 and below store -32768, 1 and above store 32767, and the stored value never has the opposite sign to the sample (samples just below zero store 0) |
| AudioCodec.QuantizeNoWrap | src/utils/audio.ts:74 | the scaled, truncated sample always fits 16 bits, so no wrap-around occurs |
| AudioCodec.Dequantize | src/utils/audio.ts:35 | a played sample lies in [-1, 32767/32768], and it is -1 exactly for the stored value -32768 |
| AudioCodec.Int16LayoutRoundTrip | src/utils/audio.ts:32 | the little-endian two's-complement layout is a bijection between int16 values and byte pairs |
| AudioCodec.PcmLayout | src/utils/audio.ts:70-75 | sample i of `floatTo16BitPCM` occupies bytes 2i and 2i+1, low byte first |
| AudioCodec.FloatTo16BitPcm | src/utils/audio.ts:70 | the PCM buffer is exactly twice as long as the sample block |
| AudioCodec.Int16View | src/utils/audio.ts:32 | `new Int16Array(bytes.buffer)` fails exactly on an odd byte length |
| AudioCodec.PcmRoundTrip | src/utils/audio.ts:69-77 | viewing the bytes written by `floatTo16BitPCM` as int16 yields one value per sample, equal to the value stored for it |
| AudioCodec.Base64Encode | src/utils/audio.ts:79-86 | the text is the RFC 4648 section 4 encoding of the buffer's bytes, has 4·⌈n/3⌉ characters, and `atob` turns it back into the buffer's binary string |
| AudioCodec.DecodeChunk | src/utils/audio.ts:26-36 | text `atob` rejects fails with InvalidCharacter; text it accepts fails exactly when the decoded byte count is odd, with OddByteLength, and otherwise yields one sample per byte pair, each in [-1, 32767/32768] |
| AudioCodec.FrameRoundTrip | src/utils/audio.ts:26-36 | a frame built by `base64Encode(floatTo16BitPCM(block))` decodes to the played value of each stored sample, one per input sample |
| AudioCodec.CaptureText | src/App.tsx:128-134 | the text sent for a capture block is the RFC 4648 section 4 encoding of its PCM bytes, 4·⌈2n/3⌉ characters long, and decodes to the played value of each sample |
| AudioCodec.QuantizationError | src/utils/audio.ts:73-74 | the played value is within one step above a negative clamped sample and less than two steps below a non-negative one |
| AudioCodec.OneStepBoundFailsAboveZero | src/utils/audio.ts:74 | the sample 65533/65534 is stored as 32766 and plays back more than one step low |
| AudioCodec.Requantize | src/utils/audio.ts:74 | re-encoding a played value gives the stored value at or below zero, and one less above zero |
| Playback.Create | src/utils/audio.ts:3-9 | a new streamer has no context, a zero cursor and the given sample rate |
| Playback.Start | src/utils/audio.ts:11-14 | `start` holds a context and sets the cursor to the new context's clock |
| Playback.Stop | src/utils/audio.ts:16-21 | `stop` drops the context and keeps the cursor and the rate |
| Playback.StopIdempotent | src/utils/audio.ts:16-21 | stopping twice is stopping once |
| Playback.DanglingLetterChunkThrows | src/utils/audio.ts:26 | with a context, the chunk "A", which `atob` rejects, makes `addChunk` throw InvalidCharacter |
| Playback.OddLengthChunkThrows | src/utils/audio.ts:32 | with a context, the chunk "AA==", one byte long, makes `addChunk` throw OddByteLength |
| Playback.AddChunk | src/utils/audio.ts:23-48 | no context means nothing is scheduled; a malformed or empty chunk throws; otherwise the decoded samples start no earlier than the clock or the cursor, at one of the two, and the cursor moves to their end |
| Playback.LateChunkPlaysNow | src/utils/audio.ts:45 | a chunk arriving after the cursor has passed starts at the current clock |
| Playback.FeedMonotone | src/utils/audio.ts:45-47 | over any run of `addChunk` calls the cursor never moves back, buffers never overlap and keep call order, and the cursor ends at the last buffer's end |
| Playback.BurstIsGapless | src/utils/audio.ts:45-47 | decodable chunks that each arrive before the clock passes the cursor left by the earlier calls (for instance while the previous chunk still plays) play back to back: the first at the cursor, each next exactly where the previous ends |
| Playback.FeedSchedulesEveryPlayableChunk | src/utils/audio.ts:23-48 | with a context, every decodable non-empty chunk is scheduled in arrival order, never before its arrival clock |
| Playback.TwoChunkBurst | src/utils/audio.ts:38-47 | two 2048-sample chunks at 24 kHz arriving together start 2048/24000 s apart |
| Microphone.GetMicrophoneStream | src/utils/audio.ts:51-67 | the preferred constraints are asked first; plain audio is asked once, exactly when the first request fails; the first request's stream is returned when it succeeds, and otherwise the retry's answer, stream or error, is returned as it is |
| App.Initial | src/App.tsx:28-51 | the app starts on the welcome screen, disconnected, with no document, no document name, no error and an empty response, holding no handle, with a 24 kHz streamer that has no context and a playback cursor at 0 |
| App.ErrorMessage | src/App.tsx:83-89 | the not-found text appears exactly for `NotFoundError`/`DevicesNotFoundError`, the denied text exactly for `NotAllowedError`/`PermissionDeniedError`, and anything else gets the generic prefix with the error's message or 'Error desconocido' |
| App.StopAudio | src/App.tsx:53-67 | each capture handle is released exactly when it is held, no effect is issued twice, all are forgotten, recording stops, and nothing else changes |
| App.ReleasedExactlyOnce | src/App.tsx:53-67 | the release list `stopAudio` builds (disconnect, stop tracks, close input context, each only when held) releases every held capture handle exactly once and nothing else, at most three effects |
| AppProperties.StopAudioIdempotent | src/App.tsx:53-67 | a second `stopAudio` releases nothing and changes nothing |
| App.ConnectToLiveApi | src/App.tsx:69-91 | without a document nothing changes; otherwise the error is cleared; without `mediaDevices` the generic error is set and no device is asked; a microphone failure sets the classified error and opens no channel; success holds the stream and opens the channel with the current mute flag captured |
| AppProperties.ConnectNeedsDocument | src/App.tsx:188-201 | an upload stores content and name and moves to the chat screen, after which a connect asks for the microphone; after a reset or an empty upload, a connect does nothing |
| AppProperties.UnsupportedUsesGenericBranch | src/App.tsx:76-78 | a browser without `mediaDevices` reports through the generic error text |
| AppProperties.MicrophoneFailureOpensNoChannel | src/App.tsx:81-91 | when both microphone requests fail, no channel is opened and the retry's error is the one reported |
| App.OnOpen | src/App.tsx:114-141 | `onopen` sets connected and recording, starts the streamer at the current clock, and installs a 16 kHz context and a 4096-sample processor whose mute gate is the attempt's captured flag; nothing else changes |
| App.OnSessionReady | src/App.tsx:171 | once `live.connect` resolves, the session is stored and nothing else changes |
| App.OnConnectFailed | src/App.tsx:172-175 | a rejected `live.connect` releases exactly the capture handles held, each once, forgets them and stops recording; nothing else changes |
| App.OnClose | src/App.tsx:159-167 | `onclose`/`onerror` leave the app disconnected, not recording and holding no capture handle; they release exactly the capture handles held, each once, and nothing else; the session, streamer, screen, document, mute flag, error and response stay |
| AppProperties.CloseThenFailReleasesNothing | src/App.tsx:172-175 | a failed connect after a close has nothing left to release |
| App.CaptureFrame | src/App.tsx:128-134 | the frame is tagged `audio/pcm;rate=16000`, its text is the RFC 4648 section 4 encoding of the block's 16-bit PCM bytes, has 4·⌈2n/3⌉ characters, and decodes to the played value of each captured sample |
| App.OnAudioProcess | src/App.tsx:126-136 | a tick sends exactly one frame, to the stored session, when a session is stored and the captured mute flag is off, and nothing otherwise; the state never changes |
| AppProperties.MuteToggleDoesNotReachCapture | src/App.tsx:127 | toggling mute does not change what a running capture sends |
| AppProperties.GatedCaptureNeverSends | src/App.tsx:126-136 | from a gated capture, no event sequence sends a frame unless a channel opens for an attempt begun unmuted |
| AppProperties.MutedConnectStaysSilent | src/App.tsx:126-136 | connecting while muted and unmuting afterwards sends nothing |
| AppProperties.UnmutedConnectSendsAfterResolve | src/App.tsx:171 | a tick before `live.connect` resolves is dropped; afterwards each tick sends one 16 kHz frame to the session |
| AppProperties.ReconnectSendsToPreviousSession | src/App.tsx:194-201 | after a reset, a reconnect's capture sends to the previous session until the new one resolves |
| AppProperties.ResetTwiceClosesSessionTwice | src/App.tsx:199 | the session stays stored after a reset, so a second reset closes it again |
| App.ForwardAudio | src/App.tsx:143-149 | the audio loop keeps the streamer's context and rate, never moves the cursor back and schedules at most one buffer per payload |
| AppProperties.ForwardAudioFeeds | src/App.tsx:143-149 | the loop is the scheduler run over the `inlineData` payloads in part order, and throws exactly when a context is held and some payload does not decode to samples |
| App.AudioData | src/App.tsx:144-148 | the payloads are those of the parts carrying `inlineData`, one per such part, in part order |
| App.OnMessage | src/App.tsx:142-158 | a message changes only the streamer and the model response; the streamer is the one the audio loop leaves; the effects are the buffers the audio loop scheduled, in order; the first part's text is appended when the loop does not throw, and nothing is appended when it throws |
| AppProperties.PlayablePrefix | src/App.tsx:144-148 | the payloads before the returned index all decode to samples, and the one at it does not |
| AppProperties.ForwardAudioStopsAtFirstUnplayable | src/App.tsx:143-149 | when the loop throws, the buffers and the streamer are those of the scheduler run over the payloads before the first unplayable one |
| AppProperties.ThrowingMessageSkipsRest | src/App.tsx:142-158 | with a context and an unplayable payload, only the payloads before it are scheduled, the later ones are dropped, and no text is appended |
| AppProperties.MessageSchedulesEveryAudioPart | src/App.tsx:143-157 | with a context and decodable payloads, one buffer per `inlineData` part is scheduled in part order, the streamer ends where the scheduler run over those payloads ends, and the first part's text is appended |
| AppProperties.InterruptionIsIgnored | src/App.tsx:151-153 | the `interrupted` flag does not change the outcome of a message |
| AppProperties.OnlyFirstTextIsAppended | src/App.tsx:155-157 | messages agreeing on every `inlineData` and on the first part's text have the same outcome |
| App.HandleUpload | src/App.tsx:188-192 | an upload stores the content and the name and moves to the chat screen; nothing else changes |
| App.ToggleMute | src/App.tsx:348 | the mute button flips the mute flag and changes nothing else |
| App.ResetApp | src/App.tsx:194-201 | reset returns to the welcome screen without a document, disconnected; it releases exactly the capture handles held and closes the stored session exactly when one is stored, issues no effect twice, and the session stays stored |
| App.Unmount | src/App.tsx:178-186 | unmounting (this cleanup together with the streamer cleanup registered at `src/App.tsx` lines 46-50) closes the output context exactly when one is held, closes the stored session exactly when one is stored, releases exactly the capture handles held, performs no other effect and none twice, and changes nothing else but the streamer's context and the capture state |
| App.ClosersThenReleases | src/App.tsx:178-186 | putting the output-context close and the stored-session close ahead of a capture release list keeps the output context closed exactly when asked, the session closed exactly when stored, the capture handles released exactly when held, and no effect repeated |
| AppProperties.CursorNeverMovesBack | src/App.tsx:142-158 | without a new `onopen`, no sequence of events moves the playback cursor back |

## Left out

- JSX rendering, animation, icons, the random visualiser and the navigation buttons. These are presentation, with no behaviour to state. The mute button appears only as the `ToggleMute` transition.
- The `GoogleGenAI` client, `live.connect`, the model name and the system prompt. These are a foreign network client. The session is an opaque `LiveSession`, and its callbacks are events.
- The Web Audio node graph, `createBufferSource`/`source.start`, and real `getUserMedia`. These are platform I/O. Clocks and devices are parameters, and scheduling a buffer is an effect.
- IEEE-754 rounding of samples and times, NaN samples, and negative zero. Samples and times are exact reals. A NaN sample, which `setInt16` would store as 0, is not representable.
- `Int16Array` uses the platform byte order. The model assumes little-endian, as on every platform the application targets.
- Document extraction (`DocumentUploader`), avatar selection and static data. These are foreign-library I/O and presentation. `AppState` is reused as `Screen`.
- Async interleaving beyond atomic callbacks. A processor overwritten by a second `onopen` without a teardown keeps firing in the browser. The model only delivers ticks from the processor it holds.
- The AudioContext constructor's accepted sample-rate range. The streamer's rate is a positive integer.
- Playback.Start: the output context is a flag, so opening a new one is not an effect. `start` replaces a held context without closing it, which the code does on every reconnect; that leak of the previous output context is not visible in the model.
- Playback.AddChunk: reads the output clock once per call. A message's chunks are all scheduled against one reading `now`, taken when the message arrives.
- `inlineData` whose `data` field is missing. The payload is modelled as a string.

=== FILE: app.dfy ===
/** The session lifecycle embedded in the `App` component of `src/App.tsx`.

    The component's React state and refs become one immutable `State`; each
    handler and each callback of the live session becomes one transition
    that returns the next state and the outward effects it performs, in
    order. Callbacks of one connect attempt carry what their closures
    captured: the acquired stream and the mute flag as it was when the
    attempt began. The network client, the Web Audio node graph and the
    device are external: their answers are parameters. */
module App {
  import opened Wrappers
  import opened AudioCodec
  import opened Microphone
  import Playback
  import Base64

  /** `AppState` of `src/types.ts`. */
  datatype Screen = Welcome | AvatarSelection | Upload | Chat

  const InputSampleRate: nat := 16000
  const OutputSampleRate: Playback.SampleRate := 24000
  const CaptureBlockSize: nat := 4096
  const CaptureMimeType: string := "audio/pcm;rate=16000"

  /** The live session object, identified opaquely. */
  datatype LiveSession = LiveSession(id: nat)

  /** The script processor `onopen` installs on the captured stream; its
      `onaudioprocess` handler holds the mute flag of its connect attempt. */
  datatype Processor = Processor(source: Stream, bufferSize: nat, mutedAtConnect: bool)

  /** The 16 kHz input audio context `onopen` creates. */
  datatype InputContext = InputContext(sampleRate: nat)

  /** The media payload of `sendRealtimeInput`. */
  datatype Frame = Frame(data: string, mimeType: string)

  datatype Effect =
    | DisconnectProcessor(processor: Processor)
    | StopTracks(stream: Stream)
    | CloseInputContext(context: InputContext)
    | CloseSession(session: LiveSession)
    | Send(session: LiveSession, frame: Frame)
    | Play(buffer: Playback.Scheduled)
    | CloseOutputContext

  datatype State = State(
    screen: Screen,
    docContent: string,
    docName: string,
    connected: bool,
    recording: bool,
    muted: bool,
    audioError: Option<string>,
    modelResponse: string,
    processor: Option<Processor>,
    micStream: Option<Stream>,
    inputContext: Option<InputContext>,
    session: Option<LiveSession>,
    streamer: Playback.AudioStreamer)

  /** A transition's outcome: the next state and the effects, in order. */
  datatype Step = Step(state: State, effects: seq<Effect>)

  /** The state after mount: the streamer exists (24 kHz) but holds no context. */
  function Initial(): (st: State)
    ensures st.screen == Welcome && !st.connected && !st.recording && !st.muted
    ensures st.processor.None? && st.micStream.None? && st.inputContext.None? && st.session.None?
    ensures st.docContent == "" && st.docName == "" && st.audioError.None? && st.modelResponse == ""
    ensures !st.streamer.hasContext && st.streamer.sampleRate == OutputSampleRate
    ensures st.streamer.nextStartTime == 0.0
  {
    State(Welcome, "", "", false, false, false, None, "", None, None, None, None,
          Playback.Create(OutputSampleRate))
  }

  // ---------------------------------------------------------------- errors

  const NotFoundMessage: string :=
    "No se encontr\U{F3} ning\U{FA}n micr\U{F3}fono." + " Por favor, conecta uno e int\U{E9}ntalo de nuevo."
  const DeniedMessage: string :=
    "Acceso al micr\U{F3}fono denegado." + " Por favor, permite el acceso en tu navegador."
  const AccessErrorPrefix: string := "Error al acceder al micr\U{F3}fono: "
  const UnknownErrorDetail: string := "Error desconocido"

  /** The `Error` thrown when `navigator.mediaDevices.getUserMedia` is absent. */
  const Unsupported: DomError :=
    DomError("Error", "Tu navegador no soporta el acceso al micr\U{F3}fono o la conexi\U{F3}n no es segura.")

  datatype ErrorClass = DeviceNotFound | PermissionDenied | OtherFailure

  function Classify(name: string): ErrorClass
  {
    if name == "NotFoundError" || name == "DevicesNotFoundError" then DeviceNotFound
    else if name == "NotAllowedError" || name == "PermissionDeniedError" then PermissionDenied
    else OtherFailure
  }

  /** The text stored in `audioError` for a failed microphone request. */
  function ErrorMessage(e: DomError): (m: string)
    ensures m == NotFoundMessage <==> Classify(e.name) == DeviceNotFound
    ensures m == DeniedMessage <==> Classify(e.name) == PermissionDenied
    ensures Classify(e.name) == OtherFailure ==> && |m| > |AccessErrorPrefix|
                                                 && m[..|AccessErrorPrefix|] == AccessErrorPrefix
                                                 && (e.message != "" ==> m[|AccessErrorPrefix|..] == e.message)
                                                 && (e.message == "" ==> m[|AccessErrorPrefix|..] == UnknownErrorDetail)
  {
    match Classify(e.name)
    case DeviceNotFound => NotFoundMessage
    case PermissionDenied => DeniedMessage
    case OtherFailure =>
      var m := AccessErrorPrefix + (if e.message != "" then e.message else UnknownErrorDetail);
      assert m[0] == 'E' && NotFoundMessage[0] == 'N' && DeniedMessage[0] == 'A';
      assert m[..|AccessErrorPrefix|] == AccessErrorPrefix;
      m
  }

  // ---------------------------------------------------------------- teardown

  /** The effects release exactly the capture handles `st` holds: the
      processor is disconnected, the tracks stopped and the input context
      closed iff each is held. */
  ghost predicate ReleasesCapture(st: State, effects: seq<Effect>)
  {
    && (forall p :: DisconnectProcessor(p) in effects <==> st.processor == Some(p))
    && (forall t :: StopTracks(t) in effects <==> st.micStream == Some(t))
    && (forall c :: CloseInputContext(c) in effects <==> st.inputContext == Some(c))
  }

  /** No effect occurs twice: each handle is released or closed at most once. */
  predicate NoRepeats(effects: seq<Effect>)
  {
    forall i, j :: 0 <= i < j < |effects| ==> effects[i] != effects[j]
  }

  /** Two repeat-free lists with no effect in common join without repeats. */
  lemma NoRepeatsAppend(a: seq<Effect>, b: seq<Effect>)
    requires NoRepeats(a) && NoRepeats(b)
    requires forall e :: e in a ==> e !in b
    ensures NoRepeats(a + b)
  {
    var ab := a + b;
    forall i, j | 0 <= i < j < |ab|
      ensures ab[i] != ab[j]
    {
      if i < |a| && j >= |a| {
        assert ab[i] in a && ab[j] == b[j - |a|];
      } else if i >= |a| {
        assert ab[i] == b[i - |a|] && ab[j] == b[j - |a|];
      }
    }
  }

  /** The capture handles are forgotten and recording has stopped. */
  predicate CaptureCleared(st: State)
  {
    st.processor.None? && st.micStream.None? && st.inputContext.None? && !st.recording
  }

  /** `released` lists, in order, a release for each capture handle `st`
      holds: then each held handle is released exactly once, and nothing
      else is. */
  lemma ReleasedExactlyOnce(st: State, released: seq<Effect>)
    requires released == (if st.processor.Some? then [DisconnectProcessor(st.processor.value)] else [])
                         + (if st.micStream.Some? then [StopTracks(st.micStream.value)] else [])
                         + (if st.inputContext.Some? then [CloseInputContext(st.inputContext.value)] else [])
    ensures ReleasesCapture(st, released)
    ensures forall e :: e in released ==> e.DisconnectProcessor? || e.StopTracks? || e.CloseInputContext?
    ensures NoRepeats(released)
    ensures |released| <= 3
  {
    var disconnect := if st.processor.Some? then [DisconnectProcessor(st.processor.value)] else [];
    var stopTracks := if st.micStream.Some? then [StopTracks(st.micStream.value)] else [];
    var close := if st.inputContext.Some? then [CloseInputContext(st.inputContext.value)] else [];
    NoRepeatsAppend(disconnect, stopTracks);
    NoRepeatsAppend(disconnect + stopTracks, close);
    assert forall e :: e in released <==> e in disconnect || e in stopTracks || e in close;
  }

  /** `stopAudio`: release each capture handle that is held, forget it, and
      stop recording. */
  function StopAudio(st: State): (s: Step)
    ensures CaptureCleared(s.state)
    ensures s.state.(processor := st.processor, micStream := st.micStream,
                     inputContext := st.inputContext, recording := st.recording) == st
    ensures ReleasesCapture(st, s.effects)
    ensures forall e :: e in s.effects ==> e.DisconnectProcessor? || e.StopTracks? || e.CloseInputContext?
    ensures NoRepeats(s.effects)
    ensures |s.effects| <= 3
  {
    var disconnect := if st.processor.Some? then [DisconnectProcessor(st.processor.value)] else [];
    var stopTracks := if st.micStream.Some? then [StopTracks(st.micStream.value)] else [];
    var close := if st.inputContext.Some? then [CloseInputContext(st.inputContext.value)] else [];
    ReleasedExactlyOnce(st, disconnect + stopTracks + close);
    Step(st.(processor := None, micStream := None, inputContext := None, recording := false), disconnect + stopTracks + close)
  }

  // ---------------------------------------------------------------- connect

  /** What the platform offers a connect attempt: whether
      `navigator.mediaDevices.getUserMedia` exists, and its answers. */
  datatype Environment = Environment(hasMediaDevices: bool, getUserMedia: Constraints -> Result<Stream, DomError>)

  /** One `connectToLiveAPI` call that acquired a stream and went on to open
      the channel: what its callbacks captured. */
  datatype Attempt = Attempt(stream: Stream, mutedAtConnect: bool)

  datatype ConnectOutcome = ConnectOutcome(state: State, requests: seq<Constraints>, attempt: Option<Attempt>)

  /** `connectToLiveAPI` up to the `live.connect` call: nothing without a
      document; otherwise clear the error, acquire the microphone, and
      either record a classified error (no channel is opened) or hold the
      stream and open the channel (`attempt`). */
  function ConnectToLiveApi(st: State, env: Environment): (c: ConnectOutcome)
    ensures st.docContent == "" ==> c == ConnectOutcome(st, [], None)
    ensures st.docContent != "" && !env.hasMediaDevices ==>
              c == ConnectOutcome(st.(audioError := Some(ErrorMessage(Unsupported))), [], None)
    ensures st.docContent != "" && env.hasMediaDevices ==>
              c.requests == GetMicrophoneStream(env.getUserMedia).requests
    ensures c.attempt.Some? <==> st.docContent != "" && env.hasMediaDevices && GetMicrophoneStream(env.getUserMedia).result.Ok?
    ensures c.attempt.Some? ==> && c.attempt.value == Attempt(GetMicrophoneStream(env.getUserMedia).result.value, st.muted)
                                && c.state == st.(audioError := None, micStream := Some(c.attempt.value.stream))
    ensures st.docContent != "" && env.hasMediaDevices && GetMicrophoneStream(env.getUserMedia).result.Err? ==>
              c.state == st.(audioError := Some(ErrorMessage(GetMicrophoneStream(env.getUserMedia).result.error)))
  {
    if st.docContent == "" then ConnectOutcome(st, [], None)
    else
      var cleared := st.(audioError := None);
      if !env.hasMediaDevices then
        ConnectOutcome(cleared.(audioError := Some(ErrorMessage(Unsupported))), [], None)
      else
        var acquisition := GetMicrophoneStream(env.getUserMedia);
        match acquisition.result
        case Err(e) => ConnectOutcome(cleared.(audioError := Some(ErrorMessage(e))), acquisition.requests, None)
        case Ok(stream) =>
          ConnectOutcome(cleared.(micStream := Some(stream)), acquisition.requests, Some(Attempt(stream, st.muted)))
  }

  /** `onopen`: connected; the playback streamer starts on a fresh output
      context whose clock reads `now`; a 16 kHz input context and a
      4096-sample processor on the attempt's stream start capturing. */
  function OnOpen(st: State, attempt: Attempt, now: real): (s: Step)
    ensures s.effects == []
    ensures s.state.connected && s.state.recording
    ensures s.state.processor == Some(Processor(attempt.stream, CaptureBlockSize, attempt.mutedAtConnect))
    ensures s.state.inputContext == Some(InputContext(InputSampleRate))
    ensures s.state.streamer == Playback.Start(st.streamer, now)
    ensures s.state.(connected := st.connected, recording := st.recording, processor := st.processor,
                     inputContext := st.inputContext, streamer := st.streamer) == st
  {
    var processor := Processor(attempt.stream, CaptureBlockSize, attempt.mutedAtConnect);
    Step(st.(connected := true, streamer := Playback.Start(st.streamer, now),
             inputContext := Some(InputContext(InputSampleRate)), processor := Some(processor),
             recording := true), [])
  }

  /** `live.connect` resolved: only now is the session stored. */
  function OnSessionReady(st: State, session: LiveSession): (s: Step)
    ensures s.effects == [] && s.state.session == Some(session)
    ensures s.state.(session := st.session) == st
  {
    Step(st.(session := Some(session)), [])
  }

  /** `live.connect` rejected: `stopAudio`; the connection flag and the
      session are left as they were. */
  function OnConnectFailed(st: State): (s: Step)
    ensures CaptureCleared(s.state) && ReleasesCapture(st, s.effects)
    ensures forall e :: e in s.effects ==> e.DisconnectProcessor? || e.StopTracks? || e.CloseInputContext?
    ensures NoRepeats(s.effects)
    ensures s.state.(processor := st.processor, micStream := st.micStream,
                     inputContext := st.inputContext, recording := st.recording) == st
  {
    StopAudio(st)
  }

  /** `onclose` and `onerror` alike: disconnected, then `stopAudio`; the
      stored session and the playback streamer stay. */
  function OnClose(st: State): (s: Step)
    ensures !s.state.connected && CaptureCleared(s.state)
    ensures ReleasesCapture(st, s.effects)
    ensures forall e :: e in s.effects ==> e.DisconnectProcessor? || e.StopTracks? || e.CloseInputContext?
    ensures NoRepeats(s.effects)
    ensures s.state.(connected := st.connected, processor := st.processor, micStream := st.micStream,
                     inputContext := st.inputContext, recording := st.recording) == st
  {
    StopAudio(st.(connected := false))
  }

  // ---------------------------------------------------------------- capture

  /** The frame sent for one captured block. */
  function CaptureFrame(block: seq<real>): (f: Frame)
    ensures f.mimeType == CaptureMimeType
    ensures f.data == Base64.Encode(FloatTo16BitPcm(block))
    ensures |f.data| == 4 * ((2 * |block| + 2) / 3)
    ensures DecodeChunk(f.data) == Ok(seq(|block|, i requires 0 <= i < |block| => Dequantize(Quantize(block[i]))))
  {
    CaptureText(block);
    Frame(Base64Encode(FloatTo16BitPcm(block)), CaptureMimeType)
  }

  /** `onaudioprocess` of the installed processor: exactly one frame goes to
      the stored session when one is stored and the processor's captured
      mute flag is off; nothing changes otherwise. With no processor
      installed no tick occurs. */
  function OnAudioProcess(st: State, block: seq<real>): (s: Step)
    ensures s.state == st
    ensures |s.effects| <= 1
    ensures |s.effects| == 1 <==> st.processor.Some? && st.session.Some? && !st.processor.value.mutedAtConnect
    ensures |s.effects| == 1 ==> s.effects[0] == Send(st.session.value, CaptureFrame(block))
  {
    if st.processor.Some? && st.session.Some? && !st.processor.value.mutedAtConnect then
      Step(st, [Send(st.session.value, CaptureFrame(block))])
    else
      Step(st, [])
  }

  // ---------------------------------------------------------------- inbound messages

  /** A part of the model's turn; `inlineData` holds the base64 audio. */
  datatype Part = Part(inlineData: Option<string>, text: Option<string>)
  datatype Content = Content(parts: Option<seq<Part>>)
  datatype ServerContent = ServerContent(modelTurn: Option<Content>, interrupted: bool)
  datatype Message = Message(serverContent: Option<ServerContent>)

  /** `message.serverContent?.modelTurn?.parts`, empty when any link is missing. */
  function Parts(m: Message): seq<Part>
  {
    match m.serverContent
    case None => []
    case Some(sc) =>
      match sc.modelTurn
      case None => []
      case Some(turn) => if turn.parts.Some? then turn.parts.value else []
  }

  /** How many of the parts carry `inlineData`. */
  function InlineCount(parts: seq<Part>): (n: nat)
    ensures n <= |parts|
  {
    if |parts| == 0 then 0
    else (if parts[0].inlineData.Some? then 1 else 0) + InlineCount(parts[1..])
  }

  lemma InlineCountPrefix(parts: seq<Part>, k: nat)
    requires 0 < k <= |parts|
    ensures InlineCount(parts[..k]) == (if parts[0].inlineData.Some? then 1 else 0) + InlineCount(parts[1..][..k - 1])
  {
    assert parts[..k][1..] == parts[1..][..k - 1];
  }

  /** The audio payloads of the parts that carry `inlineData`, in part
      order: one per such part, the payload of the part at index `k` sitting
      behind those of the earlier parts. */
  function AudioData(parts: seq<Part>): (data: seq<string>)
    ensures |data| == InlineCount(parts)
    ensures forall k :: 0 <= k < |parts| && parts[k].inlineData.Some? ==>
              InlineCount(parts[..k]) < |data| && data[InlineCount(parts[..k])] == parts[k].inlineData.value
    decreases |parts|
  {
    if |parts| == 0 then []
    else
      var head := if parts[0].inlineData.Some? then [parts[0].inlineData.value] else [];
      var rest := AudioData(parts[1..]);
      assert parts[..0] == [];
      forall k | 0 < k < |parts| && parts[k].inlineData.Some?
        ensures InlineCount(parts[..k]) < |head + rest| && (head + rest)[InlineCount(parts[..k])] == parts[k].inlineData.value
      {
        InlineCountPrefix(parts, k);
        assert parts[k] == parts[1..][k - 1];
      }
      head + rest
  }

  /** `parts[0].text` when it is a non-empty string. */
  function FirstText(parts: seq<Part>): Option<string>
  {
    if |parts| > 0 && parts[0].text.Some? && parts[0].text.value != "" then parts[0].text else None
  }

  /** Each payload arrives when the output clock reads `now`. */
  function Arrivals(data: seq<string>, now: real): (a: seq<Playback.Arrival>)
    ensures |a| == |data|
    ensures forall k :: 0 <= k < |a| ==> a[k] == Playback.Arrival(data[k], now)
  {
    seq(|data|, k requires 0 <= k < |data| => Playback.Arrival(data[k], now))
  }

  /** The streamer after the audio loop, the buffers it scheduled, and
      whether an `addChunk` call threw (which ends the handler). */
  datatype Dispatch = Dispatch(streamer: Playback.AudioStreamer, played: seq<Playback.Scheduled>, threw: bool)

  /** The `for … of parts` loop, over the parts that carry `inlineData`:
      `addChunk` for each payload in turn until one throws. */
  function ForwardAudio(streamer: Playback.AudioStreamer, data: seq<string>, now: real): (d: Dispatch)
    ensures d.streamer.hasContext == streamer.hasContext && d.streamer.sampleRate == streamer.sampleRate
    ensures d.streamer.nextStartTime >= streamer.nextStartTime
    ensures |d.played| <= |data|
    ensures !streamer.hasContext ==> d == Dispatch(streamer, [], false)
    decreases |data|
  {
    if |data| == 0 then Dispatch(streamer, [], false)
    else
      match Playback.AddChunk(streamer, data[0], now)
      case Ignored => ForwardAudio(streamer, data[1..], now)
      case Failed(_) => Dispatch(streamer, [], true)
      case Played(next, buffer) =>
        var d := ForwardAudio(next, data[1..], now);
        Dispatch(d.streamer, [buffer] + d.played, d.threw)
  }

  /** `onmessage`: forward the audio parts in order, ignore `interrupted`,
      and append the first part's text to the model response, unless an
      `addChunk` call threw first. */
  function OnMessage(st: State, m: Message, now: real): (s: Step)
    ensures s.state == st.(streamer := s.state.streamer, modelResponse := s.state.modelResponse)
    ensures s.state.streamer == ForwardAudio(st.streamer, AudioData(Parts(m)), now).streamer
    ensures s.state.streamer.nextStartTime >= st.streamer.nextStartTime
    ensures s.state.streamer.hasContext == st.streamer.hasContext
    ensures s.state.streamer.sampleRate == st.streamer.sampleRate
    ensures ForwardAudio(st.streamer, AudioData(Parts(m)), now).threw ==> s.state.modelResponse == st.modelResponse
    ensures !ForwardAudio(st.streamer, AudioData(Parts(m)), now).threw ==>
              s.state.modelResponse == st.modelResponse + (if FirstText(Parts(m)).Some? then FirstText(Parts(m)).value else "")
    ensures |s.effects| == |ForwardAudio(st.streamer, AudioData(Parts(m)), now).played| <= |AudioData(Parts(m))|
    ensures forall k :: 0 <= k < |s.effects| ==> s.effects[k] == Play(ForwardAudio(st.streamer, AudioData(Parts(m)), now).played[k])
  {
    var parts := Parts(m);
    var d := ForwardAudio(st.streamer, AudioData(parts), now);
    var response := if !d.threw && FirstText(parts).Some? then st.modelResponse + FirstText(parts).value
                    else st.modelResponse;
    Step(st.(streamer := d.streamer, modelResponse := response),
         seq(|d.played|, k requires 0 <= k < |d.played| => Play(d.played[k])))
  }

  // ---------------------------------------------------------------- user actions

  /** The mute button: flips the flag only. */
  function ToggleMute(st: State): (r: State)
    ensures r.muted != st.muted
    ensures r.(muted := st.muted) == st
  {
    st.(muted := !st.muted)
  }

  /** `handleUpload`: store the document and go to the chat screen. */
  function HandleUpload(st: State, content: string, name: string): (r: State)
    ensures r.screen == Chat && r.docContent == content && r.docName == name
    ensures r.(screen := st.screen, docContent := st.docContent, docName := st.docName) == st
  {
    st.(docContent := content, docName := name, screen := Chat)
  }

  /** `resetApp`: back to the welcome screen without a document,
      disconnected; the stored session, if any, is closed but stays stored;
      then `stopAudio`. */
  function ResetApp(st: State): (s: Step)
    ensures s.state.screen == Welcome && s.state.docContent == "" && s.state.docName == ""
    ensures !s.state.connected && CaptureCleared(s.state)
    ensures s.state.session == st.session
    ensures s.state.muted == st.muted && s.state.audioError == st.audioError
    ensures s.state.modelResponse == st.modelResponse && s.state.streamer == st.streamer
    ensures forall x :: CloseSession(x) in s.effects <==> st.session == Some(x)
    ensures ReleasesCapture(st, s.effects)
    ensures forall e :: e in s.effects ==> e.CloseSession? || e.DisconnectProcessor? || e.StopTracks? || e.CloseInputContext?
    ensures NoRepeats(s.effects)
  {
    var cleared := st.(screen := Welcome, docContent := "", docName := "", connected := false);
    var stop := StopAudio(cleared);
    var closeSession := if st.session.Some? then [CloseSession(st.session.value)] else [];
    NoRepeatsAppend(closeSession, stop.effects);
    Step(stop.state, closeSession + stop.effects)
  }

  /** Closing the output context (when `withOutput`) and the stored session
      ahead of a capture release list keeps every handle released exactly
      once. */
  lemma ClosersThenReleases(st: State, withOutput: bool, released: seq<Effect>, effects: seq<Effect>)
    requires ReleasesCapture(st, released) && NoRepeats(released) && |released| <= 3
    requires forall e :: e in released ==> e.DisconnectProcessor? || e.StopTracks? || e.CloseInputContext?
    requires effects == (if withOutput then [CloseOutputContext] else [])
                        + (if st.session.Some? then [CloseSession(st.session.value)] else [])
                        + released
    ensures CloseOutputContext in effects <==> withOutput
    ensures forall x :: CloseSession(x) in effects <==> st.session == Some(x)
    ensures ReleasesCapture(st, effects)
    ensures forall e :: e in effects ==> || e.CloseOutputContext? || e.CloseSession?
                                         || e.DisconnectProcessor? || e.StopTracks? || e.CloseInputContext?
    ensures |effects| <= 5
    ensures NoRepeats(effects)
  {
    var closeOutput := if withOutput then [CloseOutputContext] else [];
    var closeSession := if st.session.Some? then [CloseSession(st.session.value)] else [];
    NoRepeatsAppend(closeOutput, closeSession);
    NoRepeatsAppend(closeOutput + closeSession, released);
    assert forall e :: e in effects <==> e in closeOutput || e in closeSession || e in released;
  }

  /** Unmount: the streamer is stopped, then the stored session is closed
      and `stopAudio` runs. */
  function Unmount(st: State): (s: Step)
    ensures !s.state.streamer.hasContext && s.state.streamer.nextStartTime == st.streamer.nextStartTime
    ensures CaptureCleared(s.state)
    ensures s.state.(streamer := st.streamer, processor := st.processor, micStream := st.micStream,
                     inputContext := st.inputContext, recording := st.recording) == st
    ensures CloseOutputContext in s.effects <==> st.streamer.hasContext
    ensures forall x :: CloseSession(x) in s.effects <==> st.session == Some(x)
    ensures ReleasesCapture(st, s.effects)
    ensures forall e :: e in s.effects ==> || e.CloseOutputContext? || e.CloseSession?
                                           || e.DisconnectProcessor? || e.StopTracks? || e.CloseInputContext?
    ensures |s.effects| <= 5
    ensures NoRepeats(s.effects)
  {
    var stopped := st.(streamer := Playback.Stop(st.streamer));
    var stop := StopAudio(stopped);
    var closeOutput := if st.streamer.hasContext then [CloseOutputContext] else [];
    var closeSession := if st.session.Some? then [CloseSession(st.session.value)] else [];
    assert stop.state.streamer == stopped.streamer;
    ClosersThenReleases(st, st.streamer.hasContext, stop.effects, closeOutput + closeSession + stop.effects);
    Step(stop.state, closeOutput + closeSession + stop.effects)
  }

  // ---------------------------------------------------------------- event traces

  datatype Event =
    | UserConnect(env: Environment)
    | Opened(attempt: Attempt, now: real)
    | SessionReady(session: LiveSession)
    | ConnectFailed
    | Closed
    | AudioProcess(block: seq<real>)
    | Received(message: Message, now: real)
    | MuteToggled
    | Uploaded(content: string, name: string)
    | Reset

  function Next(st: State, e: Event): Step
  {
    match e
    case UserConnect(env) => Step(ConnectToLiveApi(st, env).state, [])
    case Opened(attempt, now) => OnOpen(st, attempt, now)
    case SessionReady(session) => OnSessionReady(st, session)
    case ConnectFailed => OnConnectFailed(st)
    case Closed => OnClose(st)
    case AudioProcess(block) => OnAudioProcess(st, block)
    case Received(message, now) => OnMessage(st, message, now)
    case MuteToggled => Step(ToggleMute(st), [])
    case Uploaded(content, name) => Step(HandleUpload(st, content, name), [])
    case Reset => ResetApp(st)
  }

  /** Events applied one after another; the effects of all of them, in order. */
  function Run(st: State, events: seq<Event>): Step
    decreases |events|
  {
    if |events| == 0 then Step(st, [])
    else
      var first := Next(st, events[0]);
      var rest := Run(first.state, events[1..]);
      Step(rest.state, first.effects + rest.effects)
  }
}

=== FILE: app_properties.dfy ===
/** Properties of the session lifecycle of `App`: teardown, the capture
    gate, inbound dispatch, and whole event traces. */
module AppProperties {
  import opened Wrappers
  import opened AudioCodec
  import opened Microphone
  import Playback
  import opened App

  // ---------------------------------------------------------------- teardown

  /** A second `stopAudio` releases nothing and changes nothing. */
  lemma StopAudioIdempotent(st: State)
    ensures var once := StopAudio(st).state; StopAudio(once) == Step(once, [])
  {
  }

  /** After `onclose` or `onerror`, a later `stopAudio` (for instance a
      rejected connect) has nothing left to release. */
  lemma CloseThenFailReleasesNothing(st: State)
    ensures OnConnectFailed(OnClose(st).state).effects == []
  {
  }

  /** The session handle is closed by `resetApp` but not forgotten: a
      second reset closes the same session again. */
  lemma ResetTwiceClosesSessionTwice(st: State)
    requires st.session.Some?
    ensures var first := ResetApp(st);
      && CloseSession(st.session.value) in first.effects
      && ResetApp(first.state).effects == [CloseSession(st.session.value)]
  {
  }

  /** A connect attempt needs a document: after an upload of non-empty
      content it asks for the microphone; after a reset, or an upload of
      empty content, it does nothing at all. */
  lemma ConnectNeedsDocument(st: State, env: Environment, content: string, name: string)
    ensures var up := HandleUpload(st, content, name);
      && up.screen == Chat && up.docContent == content && up.docName == name
      && (content == "" ==> ConnectToLiveApi(up, env) == ConnectOutcome(up, [], None))
      && (content != "" && env.hasMediaDevices ==> |ConnectToLiveApi(up, env).requests| >= 1)
    ensures var r := ResetApp(st).state; ConnectToLiveApi(r, env) == ConnectOutcome(r, [], None)
  {
  }

  // ---------------------------------------------------------------- errors

  /** A browser without `mediaDevices` reports through the generic branch. */
  lemma UnsupportedUsesGenericBranch()
    ensures Classify(Unsupported.name) == OtherFailure
    ensures ErrorMessage(Unsupported) == AccessErrorPrefix + Unsupported.message
  {
  }

  /** A rejected request opens no channel, whichever constraints failed. */
  lemma MicrophoneFailureOpensNoChannel(st: State, env: Environment)
    requires st.docContent != ""
    requires env.getUserMedia(Preferred).Err? && env.getUserMedia(Plain).Err?
    ensures ConnectToLiveApi(st, env).attempt.None?
    ensures ConnectToLiveApi(st, env).state.audioError.Some?
    ensures env.hasMediaDevices ==>
              ConnectToLiveApi(st, env).state.audioError == Some(ErrorMessage(env.getUserMedia(Plain).error))
  {
  }

  // ---------------------------------------------------------------- capture gate

  /** The mute button does not reach a running capture: the processor's
      handler keeps the flag of its connect attempt. */
  lemma MuteToggleDoesNotReachCapture(st: State, block: seq<real>)
    ensures OnAudioProcess(ToggleMute(st), block).effects == OnAudioProcess(st, block).effects
  {
  }

  /** No processor, or one whose attempt began muted. */
  ghost predicate CaptureGated(st: State)
  {
    st.processor.None? || st.processor.value.mutedAtConnect
  }

  /** No effect in the list sends a frame. */
  predicate SendsNothing(effects: seq<Effect>)
  {
    forall k :: 0 <= k < |effects| ==> !effects[k].Send?
  }

  /** Teardown effects are releases only. */
  lemma StopAudioSendsNothing(st: State)
    ensures SendsNothing(StopAudio(st).effects)
  {
    var effects := StopAudio(st).effects;
    assert forall k :: 0 <= k < |effects| ==> effects[k] in effects;
  }

  lemma NextKeepsGate(st: State, e: Event)
    requires CaptureGated(st)
    requires e.Opened? ==> e.attempt.mutedAtConnect
    ensures CaptureGated(Next(st, e).state)
    ensures SendsNothing(Next(st, e).effects)
  {
    NextGatesCapture(st, e);
    NextSendsNothing(st, e);
  }

  /** Only `onopen` installs a processor, with the flag of its attempt. */
  lemma NextGatesCapture(st: State, e: Event)
    requires CaptureGated(st)
    requires e.Opened? ==> e.attempt.mutedAtConnect
    ensures CaptureGated(Next(st, e).state)
  {
    match e
    case UserConnect(env) =>
      ConnectKeepsProcessor(st, env);
    case Opened(attempt, now) =>
      assert Next(st, e) == OnOpen(st, attempt, now);
    case AudioProcess(block) =>
      assert Next(st, e) == OnAudioProcess(st, block);
    case Received(message, now) =>
      assert Next(st, e) == OnMessage(st, message, now);
    case _ =>
  }

  /** From a gated capture, no single event sends a frame. */
  lemma NextSendsNothing(st: State, e: Event)
    requires CaptureGated(st)
    ensures SendsNothing(Next(st, e).effects)
  {
    match e
    case ConnectFailed =>
      StopAudioSendsNothing(st);
    case Closed =>
      StopAudioSendsNothing(st.(connected := false));
    case AudioProcess(block) =>
      assert OnAudioProcess(st, block).effects == [];
    case Received(message, now) =>
      assert Next(st, e) == OnMessage(st, message, now);
    case Reset =>
      var r := ResetApp(st);
      assert Next(st, e) == r;
      assert forall k :: 0 <= k < |r.effects| ==> r.effects[k] in r.effects;
    case _ =>
  }

  /** A connect attempt installs no processor: only `onopen` does. */
  lemma ConnectKeepsProcessor(st: State, env: Environment)
    ensures ConnectToLiveApi(st, env).state.processor == st.processor
  {
  }

  /** While capture is gated and every channel that opens belongs to an
      attempt begun muted, no frame is ever sent, whatever else happens,
      mute toggles included. */
  lemma {:induction false} GatedCaptureNeverSends(st: State, events: seq<Event>)
    requires CaptureGated(st)
    requires forall k :: 0 <= k < |events| && events[k].Opened? ==> events[k].attempt.mutedAtConnect
    ensures CaptureGated(Run(st, events).state)
    ensures SendsNothing(Run(st, events).effects)
    decreases |events|
  {
    if |events| > 0 {
      var first := Next(st, events[0]);
      NextKeepsGate(st, events[0]);
      var tail := events[1..];
      forall k | 0 <= k < |tail| && tail[k].Opened?
        ensures tail[k].attempt.mutedAtConnect
      {
        assert tail[k] == events[k + 1];
      }
      GatedCaptureNeverSends(first.state, tail);
      var rest := Run(first.state, tail);
      var all := first.effects + rest.effects;
      assert Run(st, events) == Step(rest.state, all);
      forall k | 0 <= k < |all|
        ensures !all[k].Send?
      {
        if k >= |first.effects| {
          assert all[k] == rest.effects[k - |first.effects|];
        }
      }
    }
  }

  // ---------------------------------------------------------------- inbound dispatch

  /** Every payload decodes to at least one sample. */
  predicate AllPlayable(data: seq<string>)
  {
    forall k :: 0 <= k < |data| ==> Playback.Playable(data[k])
  }

  lemma AllPlayableCons(data: seq<string>)
    requires |data| > 0
    ensures AllPlayable(data) <==> Playback.Playable(data[0]) && AllPlayable(data[1..])
  {
    if Playback.Playable(data[0]) && AllPlayable(data[1..]) {
      forall k | 0 <= k < |data|
        ensures Playback.Playable(data[k])
      {
        if k > 0 {
          assert data[k] == data[1..][k - 1];
        }
      }
    }
  }

  lemma AllPlayablePrepend(x: string, rest: seq<string>)
    requires Playback.Playable(x) && AllPlayable(rest)
    ensures AllPlayable([x] + rest)
  {
    AllPlayableCons([x] + rest);
    assert ([x] + rest)[1..] == rest;
  }

  /** The audio loop throws exactly when a context is held and some payload
      does not decode to samples. */
  lemma {:induction false} ForwardAudioThrows(streamer: Playback.AudioStreamer, data: seq<string>, now: real)
    ensures ForwardAudio(streamer, data, now).threw <==> streamer.hasContext && !AllPlayable(data)
    decreases |data|
  {
    if |data| > 0 {
      AllPlayableCons(data);
      match Playback.AddChunk(streamer, data[0], now)
      case Ignored =>
        ForwardAudioThrows(streamer, data[1..], now);
      case Failed(_) =>
      case Played(next, b) =>
        ForwardAudioThrows(next, data[1..], now);
    }
  }

  /** When it does not throw, the audio loop is the scheduler run over the
      payloads, in part order. */
  lemma {:induction false} ForwardAudioIsFeed(streamer: Playback.AudioStreamer, data: seq<string>, now: real)
    ensures var d := ForwardAudio(streamer, data, now);
              !d.threw ==> (d.streamer, d.played) == Playback.Feed(streamer, Arrivals(data, now))
    decreases |data|
  {
    if |data| > 0 {
      var arrivals := Arrivals(data, now);
      assert arrivals[0] == Playback.Arrival(data[0], now);
      assert arrivals[1..] == Arrivals(data[1..], now);
      match Playback.AddChunk(streamer, data[0], now)
      case Ignored =>
        ForwardAudioIsFeed(streamer, data[1..], now);
      case Failed(_) =>
      case Played(next, b) =>
        ForwardAudioIsFeed(next, data[1..], now);
    }
  }

  /** The audio loop is the scheduler run over the payloads, in part order,
      cut short at the first payload that makes `addChunk` throw; it throws
      exactly when a context is held and some payload does not decode to
      samples. */
  lemma ForwardAudioFeeds(streamer: Playback.AudioStreamer, data: seq<string>, now: real)
    ensures ForwardAudio(streamer, data, now).threw <==> streamer.hasContext && !AllPlayable(data)
    ensures var d := ForwardAudio(streamer, data, now);
              !d.threw ==> (d.streamer, d.played) == Playback.Feed(streamer, Arrivals(data, now))
  {
    ForwardAudioThrows(streamer, data, now);
    ForwardAudioIsFeed(streamer, data, now);
  }

  /** A prefix of length m + 1 is the first element before the tail's
      prefix of length m. */
  lemma PrefixCons<T>(s: seq<T>, m: nat)
    requires m < |s|
    ensures s[..m + 1] == [s[0]] + s[1..][..m]
  {
  }

  /** The length of the longest run of payloads, from the first, that
      decode to samples. */
  function PlayablePrefix(data: seq<string>): (n: nat)
    ensures n <= |data|
    ensures AllPlayable(data[..n])
    ensures n < |data| ==> !Playback.Playable(data[n])
    decreases |data|
  {
    if |data| == 0 || !Playback.Playable(data[0]) then
      assert data[..0] == [];
      0
    else
      var m := PlayablePrefix(data[1..]);
      PrefixCons(data, m);
      AllPlayablePrepend(data[0], data[1..][..m]);
      m + 1
  }

  /** Some payload is unplayable exactly when the playable run stops short. */
  lemma PlayablePrefixStops(data: seq<string>)
    ensures PlayablePrefix(data) < |data| <==> !AllPlayable(data)
  {
    assert data[..|data|] == data;
  }

  lemma ArrivalsOfPrefix(data: seq<string>, m: nat, now: real)
    requires m < |data|
    ensures var a := Arrivals(data[..m + 1], now);
      |a| > 0 && a[0] == Playback.Arrival(data[0], now) && a[1..] == Arrivals(data[1..][..m], now)
  {
    PrefixCons(data, m);
    assert Arrivals(data[..m + 1], now)[1..] == Arrivals(data[1..][..m], now);
  }

  /** When the audio loop throws, the buffers it scheduled are those of the
      scheduler run over the payloads before the first one that does not
      decode to samples; that payload and the later ones are never handed
      to `addChunk`. */
  lemma {:induction false} ForwardAudioStopsAtFirstUnplayable(streamer: Playback.AudioStreamer, data: seq<string>, now: real)
    ensures var d := ForwardAudio(streamer, data, now);
              d.threw ==> (d.streamer, d.played) == Playback.Feed(streamer, Arrivals(data[..PlayablePrefix(data)], now))
    decreases |data|
  {
    if |data| > 0 {
      var n := PlayablePrefix(data);
      match Playback.AddChunk(streamer, data[0], now)
      case Ignored =>
      case Failed(_) =>
        assert n == 0 && data[..n] == [];
      case Played(next, b) =>
        ForwardAudioStopsAtFirstUnplayable(next, data[1..], now);
        var d := ForwardAudio(next, data[1..], now);
        assert ForwardAudio(streamer, data, now) == Dispatch(d.streamer, [b] + d.played, d.threw);
        assert n == 1 + PlayablePrefix(data[1..]);
        ArrivalsOfPrefix(data, n - 1, now);
        Playback.FeedAfterPlayed(streamer, Arrivals(data[..n], now));
    }
  }

  /** A message whose audio makes `addChunk` throw: only the buffers of the
      payloads before the first unplayable one are scheduled, the later
      payloads are dropped, and no text is appended. */
  lemma ThrowingMessageSkipsRest(st: State, m: Message, now: real)
    requires st.streamer.hasContext
    requires !AllPlayable(AudioData(Parts(m)))
    ensures var data := AudioData(Parts(m));
      var s := OnMessage(st, m, now);
      var run := Playback.Feed(st.streamer, Arrivals(data[..PlayablePrefix(data)], now));
      && PlayablePrefix(data) < |data|
      && s.state.modelResponse == st.modelResponse
      && s.state.streamer == run.0
      && |s.effects| == |run.1|
      && (forall k :: 0 <= k < |s.effects| ==> s.effects[k] == Play(run.1[k]))
  {
    var data := AudioData(Parts(m));
    var n := PlayablePrefix(data);
    PlayablePrefixStops(data);
    ForwardAudioThrows(st.streamer, data, now);
    ForwardAudioStopsAtFirstUnplayable(st.streamer, data, now);
    var d := ForwardAudio(st.streamer, data, now);
    assert d.threw;
    var s := OnMessage(st, m, now);
    assert s.state.streamer == d.streamer && s.state.modelResponse == st.modelResponse;
  }

  /** With a context held and every payload decodable to samples, a message
      schedules one buffer per `inlineData` part, in part order, each holding
      that payload's samples, and appends the first part's text. */
  lemma MessageSchedulesEveryAudioPart(st: State, m: Message, now: real)
    requires st.streamer.hasContext
    requires AllPlayable(AudioData(Parts(m)))
    ensures var s := OnMessage(st, m, now);
      && |s.effects| == |AudioData(Parts(m))|
      && s.state.streamer == Playback.Feed(st.streamer, Arrivals(AudioData(Parts(m)), now)).0
      && (forall k :: 0 <= k < |s.effects| ==>
            DecodeChunk(AudioData(Parts(m))[k]) == Ok(s.effects[k].buffer.samples)
            && s.effects[k].buffer.start >= now)
      && s.state.modelResponse == (if FirstText(Parts(m)).Some? then st.modelResponse + FirstText(Parts(m)).value
                                   else st.modelResponse)
  {
    var data := AudioData(Parts(m));
    ForwardAudioFeeds(st.streamer, data, now);
    var arrivals := Arrivals(data, now);
    Playback.FeedSchedulesEveryPlayableChunk(st.streamer, arrivals);
  }

  /** The `interrupted` flag changes nothing: no playback is flushed. */
  lemma InterruptionIsIgnored(st: State, sc: ServerContent, now: real)
    ensures OnMessage(st, Message(Some(sc.(interrupted := !sc.interrupted))), now)
         == OnMessage(st, Message(Some(sc)), now)
  {
  }

  lemma {:induction false} AudioDataReadsOnlyInlineData(p: seq<Part>, q: seq<Part>)
    requires |p| == |q|
    requires forall k :: 0 <= k < |p| ==> p[k].inlineData == q[k].inlineData
    ensures AudioData(p) == AudioData(q)
    decreases |p|
  {
    if |p| > 0 {
      AudioDataReadsOnlyInlineData(p[1..], q[1..]);
    }
  }

  /** Only the first part's text matters: two messages whose parts agree on
      every `inlineData` and on the first text have the same effect. */
  lemma OnlyFirstTextIsAppended(st: State, m1: Message, m2: Message, now: real)
    requires |Parts(m1)| == |Parts(m2)|
    requires forall k :: 0 <= k < |Parts(m1)| ==> Parts(m1)[k].inlineData == Parts(m2)[k].inlineData
    requires |Parts(m1)| > 0 ==> Parts(m1)[0].text == Parts(m2)[0].text
    ensures OnMessage(st, m1, now) == OnMessage(st, m2, now)
  {
    AudioDataReadsOnlyInlineData(Parts(m1), Parts(m2));
  }

  // ---------------------------------------------------------------- traces

  /** No event but `onopen` moves the playback cursor back. */
  lemma NextKeepsCursor(st: State, e: Event)
    requires !e.Opened?
    ensures Next(st, e).state.streamer.nextStartTime >= st.streamer.nextStartTime
  {
    match e
    case UserConnect(env) =>
      assert ConnectToLiveApi(st, env).state.streamer == st.streamer;
    case Received(message, now) =>
      assert Next(st, e) == OnMessage(st, message, now);
    case _ =>
  }

  /** Without a new `onopen` (which restarts the output clock), the playback
      cursor never moves back, whatever events arrive. */
  lemma {:induction false} CursorNeverMovesBack(st: State, events: seq<Event>)
    requires forall k :: 0 <= k < |events| ==> !events[k].Opened?
    ensures Run(st, events).state.streamer.nextStartTime >= st.streamer.nextStartTime
    decreases |events|
  {
    if |events| > 0 {
      var first := Next(st, events[0]);
      NextKeepsCursor(st, events[0]);
      var tail := events[1..];
      forall k | 0 <= k < |tail|
        ensures !tail[k].Opened?
      {
        assert tail[k] == events[k + 1];
      }
      CursorNeverMovesBack(first.state, tail);
    }
  }

  // ---------------------------------------------------------------- scenarios

  /** A microphone that grants every request. */
  function GrantingDevice(): Environment
  {
    Environment(true, (c: Constraints) => Ok(Stream(1)))
  }

  /** Connecting while muted, then unmuting: the running capture stays
      silent; nothing is sent before or after the toggle. */
  lemma MutedConnectStaysSilent(content: string, block: seq<real>)
    requires content != ""
    ensures var st := HandleUpload(ToggleMute(Initial()), content, "doc");
      var events := [UserConnect(GrantingDevice()), Opened(Attempt(Stream(1), true), 0.0),
                     SessionReady(LiveSession(7)), AudioProcess(block), AudioProcess(block),
                     AudioProcess(block), MuteToggled, AudioProcess(block)];
      && ConnectToLiveApi(st, GrantingDevice()).attempt == Some(Attempt(Stream(1), true))
      && SendsNothing(Run(st, events).effects)
  {
    var st := HandleUpload(ToggleMute(Initial()), content, "doc");
    var events := [UserConnect(GrantingDevice()), Opened(Attempt(Stream(1), true), 0.0),
                   SessionReady(LiveSession(7)), AudioProcess(block), AudioProcess(block),
                   AudioProcess(block), MuteToggled, AudioProcess(block)];
    GatedCaptureNeverSends(st, events);
  }

  /** Connecting unmuted: a tick before `live.connect` resolves is dropped;
      afterwards each tick sends exactly one 16 kHz frame to the session. */
  lemma UnmutedConnectSendsAfterResolve(content: string, block: seq<real>)
    requires content != ""
    ensures var st := HandleUpload(Initial(), content, "doc");
      var c := ConnectToLiveApi(st, GrantingDevice());
      var open := OnOpen(c.state, Attempt(Stream(1), false), 0.0).state;
      var ready := OnSessionReady(open, LiveSession(7)).state;
      && c.attempt == Some(Attempt(Stream(1), false))
      && OnAudioProcess(open, block).effects == []
      && OnAudioProcess(ready, block).effects == [Send(LiveSession(7), CaptureFrame(block))]
      && CaptureFrame(block).mimeType == "audio/pcm;rate=16000"
  {
  }

  /** After a reset the old session stays stored, so a reconnect's capture
      sends to that old session until the new `live.connect` resolves. */
  lemma ReconnectSendsToPreviousSession(st: State, content: string, block: seq<real>)
    requires st.session == Some(LiveSession(3)) && !st.muted && content != ""
    ensures var again := HandleUpload(ResetApp(st).state, content, "doc");
      var c := ConnectToLiveApi(again, GrantingDevice());
      && c.attempt.Some?
      && OnAudioProcess(OnOpen(c.state, c.attempt.value, 0.0).state, block).effects
         == [Send(LiveSession(3), CaptureFrame(block))]
  {
  }
}

=== FILE: audio_codec.dfy ===
/** The frame codec of `src/utils/audio.ts`: float samples to 16-bit
    little-endian PCM (`floatTo16BitPCM`), PCM bytes to base64 text
    (`base64Encode`), and the decode half of `AudioStreamer.addChunk`
    (base64 text to bytes, bytes to `Int16Array`, each value divided by
    32768). Samples are exact reals: the rounding of 32-bit floats is not
    modelled. */
module AudioCodec {
  import opened Wrappers
  import opened Bytes
  import opened Base64

  type Int16 = v: int | -32768 <= v < 32768

  // ---------------------------------------------------------------- quantisation

  function Min(a: real, b: real): real { if a <= b then a else b }

  function Max(a: real, b: real): real { if a >= b then a else b }

  /** `Math.max(-1, Math.min(1, x))`. */
  function Clamp(x: real): (s: real)
    ensures -1.0 <= s <= 1.0
    ensures -1.0 <= x <= 1.0 ==> s == x
    ensures x < -1.0 ==> s == -1.0
    ensures x > 1.0 ==> s == 1.0
  {
    Max(-1.0, Min(1.0, x))
  }

  /** Integer part of `x`, rounding toward zero. */
  function Truncate(x: real): (n: int)
    ensures 0.0 <= x ==> n as real <= x < n as real + 1.0
    ensures x < 0.0 ==> n as real - 1.0 < x <= n as real
  {
    if x < 0.0 then -((-x).Floor) else x.Floor
  }

  /** The ECMAScript ToInt16 conversion that `DataView.setInt16` applies:
      truncate toward zero, then wrap modulo 2^16 into [-32768, 32767]. */
  function ToInt16(x: real): (v: Int16)
    ensures (v - Truncate(x)) % 65536 == 0
    ensures -32768 <= Truncate(x) <= 32767 ==> v == Truncate(x)
  {
    var m := Truncate(x) % 65536;
    if m >= 32768 then m - 65536 else m
  }

  /** The scale applied to a clamped sample: 0x8000 below zero, 0x7FFF otherwise. */
  function Scale(s: real): real
  {
    if s < 0.0 then s * 32768.0 else s * 32767.0
  }

  /** The value `floatTo16BitPCM` stores for one sample. */
  function Quantize(x: real): (v: Int16)
    ensures x <= -1.0 ==> v == -32768
    ensures x >= 1.0 ==> v == 32767
    ensures x < 0.0 ==> v <= 0
    ensures x >= 0.0 ==> v >= 0
  {
    ToInt16(Scale(Clamp(x)))
  }

  /** The value `addChunk` plays for one stored 16-bit sample. */
  function Dequantize(v: Int16): (y: real)
    ensures -1.0 <= y <= 32767.0 / 32768.0
    ensures v == -32768 <==> y == -1.0
  {
    v as real / 32768.0
  }

  // ---------------------------------------------------------------- byte layout

  /** Two's-complement little-endian bytes of a 16-bit value. */
  function Int16LE(v: Int16): (b: seq<Byte>)
    ensures |b| == 2
  {
    var u := v % 65536;
    [u % 256, u / 256]
  }

  /** The 16-bit value held by a little-endian byte pair. */
  function ReadInt16LE(lo: Byte, hi: Byte): Int16
  {
    var u := lo + 256 * hi;
    if u >= 32768 then u - 65536 else u
  }

  /** `floatTo16BitPCM`: one little-endian 16-bit value per sample. */
  function FloatTo16BitPcm(samples: seq<real>): (buffer: seq<Byte>)
    ensures |buffer| == 2 * |samples|
  {
    seq(2 * |samples|, k requires 0 <= k < 2 * |samples| => Int16LE(Quantize(samples[k / 2]))[k % 2])
  }

  /** `new Int16Array(bytes.buffer)`: throws on an odd byte length, otherwise
      reads consecutive little-endian pairs. */
  function Int16View(bytes: seq<Byte>): (r: Result<seq<Int16>, ChunkError>)
    ensures r.Err? <==> |bytes| % 2 == 1
    ensures r.Err? ==> r.error == OddByteLength
  {
    if |bytes| % 2 == 1 then Err(OddByteLength)
    else Ok(seq(|bytes| / 2, i requires 0 <= i < |bytes| / 2 => ReadInt16LE(bytes[2 * i], bytes[2 * i + 1])))
  }

  // ---------------------------------------------------------------- transport

  /** `base64Encode`: the binary string of the buffer, passed to `btoa`. */
  function Base64Encode(buffer: seq<Byte>): (text: string)
    ensures text == Encode(buffer)
    ensures |text| == 4 * ((|buffer| + 2) / 3)
    ensures Atob(text) == Some(BinaryString(buffer))
  {
    var binary := BinaryString(buffer);
    CharCodesOfBinaryString(buffer);
    AtobBtoa(binary);
    Btoa(binary).value
  }

  /** Why `addChunk` can throw: `atob` rejects the text (InvalidCharacterError),
      `Int16Array` rejects an odd byte length (RangeError), or `createBuffer`
      rejects a buffer of zero samples (NotSupportedError). */
  datatype ChunkError = InvalidCharacter | OddByteLength | EmptyBuffer

  /** The decode half of `addChunk`: base64 text to playback samples. */
  function DecodeChunk(data: string): (r: Result<seq<real>, ChunkError>)
    ensures r.Ok? ==> forall i :: 0 <= i < |r.value| ==> -1.0 <= r.value[i] <= 32767.0 / 32768.0
    ensures r.Err? ==> r.error != EmptyBuffer
    ensures Atob(data).None? ==> r == Err(InvalidCharacter)
    ensures Atob(data).Some? ==> (r.Err? <==> |Atob(data).value| % 2 == 1)
    ensures Atob(data).Some? && r.Err? ==> r.error == OddByteLength
    ensures Atob(data).Some? && r.Ok? ==> 2 * |r.value| == |Atob(data).value|
  {
    match Atob(data)
    case None => Err(InvalidCharacter)
    case Some(binary) =>
      match Int16View(CharCodes(binary))
      case Err(e) => Err(e)
      case Ok(pcm) => Ok(seq(|pcm|, i requires 0 <= i < |pcm| => Dequantize(pcm[i])))
  }

  // ---------------------------------------------------------------- properties

  /** The scaled value always fits 16 bits, so the wrap of ToInt16 never
      fires: the stored value is the truncated scaled sample. */
  lemma QuantizeNoWrap(x: real)
    ensures -32768 <= Truncate(Scale(Clamp(x))) <= 32767
    ensures Quantize(x) == Truncate(Scale(Clamp(x)))
  {
  }

  /** Reading a written pair gives the value back, and writing a read pair
      gives the bytes back: the layout is a bijection. */
  lemma Int16LayoutRoundTrip(v: Int16, lo: Byte, hi: Byte)
    ensures ReadInt16LE(Int16LE(v)[0], Int16LE(v)[1]) == v
    ensures Int16LE(ReadInt16LE(lo, hi)) == [lo, hi]
  {
    Wrap16(v);
    var u := v % 65536;
    assert u == u / 256 * 256 + u % 256;
    var w := ReadInt16LE(lo, hi);
    Wrap16(w);
    SplitBy256(hi, lo);
  }

  /** The unsigned 16-bit pattern of a signed value. */
  lemma Wrap16(w: Int16)
    ensures w % 65536 == if w >= 0 then w else w + 65536
  {
  }

  lemma SplitBy256(hi: int, lo: int)
    requires 0 <= lo < 256
    ensures (lo + 256 * hi) / 256 == hi && (lo + 256 * hi) % 256 == lo
  {
  }

  /** Sample `i` occupies bytes `2i` (low) and `2i + 1` (high). */
  lemma PcmLayout(samples: seq<real>, i: nat)
    requires i < |samples|
    ensures FloatTo16BitPcm(samples)[2 * i..2 * i + 2] == Int16LE(Quantize(samples[i]))
  {
    var buffer := FloatTo16BitPcm(samples);
    assert (2 * i) / 2 == i && (2 * i) % 2 == 0;
    assert (2 * i + 1) / 2 == i && (2 * i + 1) % 2 == 1;
  }

  /** Integer-domain round trip: viewing the encoded bytes as `Int16Array`
      yields exactly the stored values, one per sample. */
  lemma PcmRoundTrip(samples: seq<real>)
    ensures Int16View(FloatTo16BitPcm(samples)) == Ok(seq(|samples|, i requires 0 <= i < |samples| => Quantize(samples[i])))
  {
    var buffer := FloatTo16BitPcm(samples);
    var expected := seq(|samples|, i requires 0 <= i < |samples| => Quantize(samples[i]));
    var view := Int16View(buffer);
    assert view.Ok? && |view.value| == |expected|;
    forall i | 0 <= i < |samples|
      ensures view.value[i] == expected[i]
    {
      PcmLayout(samples, i);
      var pair := buffer[2 * i..2 * i + 2];
      assert buffer[2 * i] == pair[0] && buffer[2 * i + 1] == pair[1];
      Int16LayoutRoundTrip(Quantize(samples[i]), 0, 0);
    }
    assert view.value == expected;
  }

  /** An encoded capture block decodes, through `atob` and `Int16Array`,
      to the playback value of each stored sample. */
  lemma FrameRoundTrip(samples: seq<real>)
    ensures DecodeChunk(Base64Encode(FloatTo16BitPcm(samples)))
         == Ok(seq(|samples|, i requires 0 <= i < |samples| => Dequantize(Quantize(samples[i]))))
  {
    var buffer := FloatTo16BitPcm(samples);
    var pcm := seq(|samples|, i requires 0 <= i < |samples| => Quantize(samples[i]));
    PcmRoundTrip(samples);
    DecodeChunkOfBuffer(Base64Encode(buffer), buffer, pcm);
    PlayedValues(samples, pcm);
  }

  /** The text sent for a capture block: the RFC 4648 text of its PCM
      bytes, 4·⌈2n/3⌉ characters long, decoding to the played values. */
  lemma CaptureText(block: seq<real>)
    ensures var text := Base64Encode(FloatTo16BitPcm(block));
      && text == Encode(FloatTo16BitPcm(block))
      && |text| == 4 * ((2 * |block| + 2) / 3)
      && DecodeChunk(text) == Ok(seq(|block|, i requires 0 <= i < |block| => Dequantize(Quantize(block[i]))))
  {
    FrameRoundTrip(block);
    var buffer := FloatTo16BitPcm(block);
    assert |buffer| == 2 * |block|;
  }

  /** Playing the stored values is playing the quantised samples. */
  lemma PlayedValues(samples: seq<real>, pcm: seq<Int16>)
    requires pcm == seq(|samples|, i requires 0 <= i < |samples| => Quantize(samples[i]))
    ensures seq(|pcm|, i requires 0 <= i < |pcm| => Dequantize(pcm[i]))
         == seq(|samples|, i requires 0 <= i < |samples| => Dequantize(Quantize(samples[i])))
  {
  }

  /** Text that `atob` turns into the binary string of a buffer decodes to
      the playback values of that buffer's int16 view. */
  lemma DecodeChunkOfBuffer(text: string, buffer: seq<Byte>, pcm: seq<Int16>)
    requires Atob(text) == Some(BinaryString(buffer))
    requires Int16View(buffer) == Ok(pcm)
    ensures DecodeChunk(text) == Ok(seq(|pcm|, i requires 0 <= i < |pcm| => Dequantize(pcm[i])))
  {
    CharCodesOfBinaryString(buffer);
  }

  /** Quantisation error: below zero the played value is at most one step
      (1/32768) above the clamped sample; from zero up it is less than two
      steps below it, because the scale there is 32767 but playback divides
      by 32768. */
  lemma QuantizationError(x: real)
    ensures Clamp(x) < 0.0 ==> Clamp(x) <= Dequantize(Quantize(x)) < Clamp(x) + 1.0 / 32768.0
    ensures Clamp(x) >= 0.0 ==> Clamp(x) - 2.0 / 32768.0 < Dequantize(Quantize(x)) <= Clamp(x)
  {
    QuantizeNoWrap(x);
  }

  /** The one-step bound does not hold from zero up: this sample plays back
      almost one and a half steps low. */
  lemma OneStepBoundFailsAboveZero()
    ensures Quantize(65533.0 / 65534.0) == 32766
    ensures Clamp(65533.0 / 65534.0) - Dequantize(Quantize(65533.0 / 65534.0)) > 1.0 / 32768.0
  {
    var x := 65533.0 / 65534.0;
    assert Scale(Clamp(x)) == 32766.5;
    QuantizeNoWrap(x);
  }

  /** Re-encoding a played value returns the stored value below and at zero,
      but one less above zero: encode, decode, encode is not the identity on
      positive values. */
  lemma Requantize(v: Int16)
    ensures v <= 0 ==> Quantize(Dequantize(v)) == v
    ensures v > 0 ==> Quantize(Dequantize(v)) == v - 1
  {
    var y := Dequantize(v);
    QuantizeNoWrap(y);
    if v > 0 {
      assert Scale(Clamp(y)) == v as real - v as real / 32768.0;
    }
  }
}

=== FILE: base64.dfy ===
/** The platform's `btoa` and `atob`.

    `btoa` writes the standard base64 encoding of section 4 of RFC 4648
    (alphabet `A-Z a-z 0-9 + /`, `=` padding to a multiple of four
    characters). `atob` runs the "forgiving-base64 decode" of the WHATWG
    Infra Standard: ASCII whitespace is dropped, one or two trailing `=` are
    dropped when the length is a multiple of four, and the input is refused
    when a single character would be left over in the last group or when any
    character outside the alphabet remains. Unused low bits of the last
    group are discarded rather than checked. */
module Base64 {
  import opened Wrappers
  import opened Bytes

  /** A six-bit group: the position of a letter in the alphabet. */
  type Index = i: int | 0 <= i < 64

  predicate IsLetter(c: char)
  {
    ('A' <= c <= 'Z') || ('a' <= c <= 'z') || ('0' <= c <= '9') || c == '+' || c == '/'
  }

  predicate AllLetters(s: string)
  {
    forall k :: 0 <= k < |s| ==> IsLetter(s[k])
  }

  function Letter(i: Index): (c: char)
    ensures IsLetter(c)
  {
    if i < 26 then ('A' as int + i) as char
    else if i < 52 then ('a' as int + (i - 26)) as char
    else if i < 62 then ('0' as int + (i - 52)) as char
    else if i == 62 then '+'
    else '/'
  }

  function IndexOf(c: char): (i: Index)
    requires IsLetter(c)
    ensures Letter(i) == c
  {
    if 'A' <= c <= 'Z' then c as int - 'A' as int
    else if 'a' <= c <= 'z' then c as int - 'a' as int + 26
    else if '0' <= c <= '9' then c as int - '0' as int + 52
    else if c == '+' then 62
    else 63
  }

  lemma IndexOfLetter(i: Index)
    ensures IndexOf(Letter(i)) == i
  {
  }

  // ---------------------------------------------------------------- encode

  /** The four letters of a full group of three bytes. */
  function EncodeTriple(b0: Byte, b1: Byte, b2: Byte): (s: string)
    ensures |s| == 4 && AllLetters(s)
  {
    [Letter(b0 / 4), Letter(b0 % 4 * 16 + b1 / 16), Letter(b1 % 16 * 4 + b2 / 64), Letter(b2 % 64)]
  }

  /** The three letters of a final group of two bytes (low two bits zero). */
  function EncodePair(b0: Byte, b1: Byte): (s: string)
    ensures |s| == 3 && AllLetters(s)
  {
    [Letter(b0 / 4), Letter(b0 % 4 * 16 + b1 / 16), Letter(b1 % 16 * 4)]
  }

  /** The two letters of a final group of one byte (low four bits zero). */
  function EncodeSingle(b0: Byte): (s: string)
    ensures |s| == 2 && AllLetters(s)
  {
    [Letter(b0 / 4), Letter(b0 % 4 * 16)]
  }

  /** Base64 letters without padding: each group of three bytes becomes four
      letters; a final group of one or two bytes becomes two or three letters. */
  function EncodeUnpadded(b: seq<Byte>): (s: string)
    ensures AllLetters(s)
    decreases |b|
  {
    if |b| == 0 then ""
    else if |b| == 1 then EncodeSingle(b[0])
    else if |b| == 2 then EncodePair(b[0], b[1])
    else EncodeTriple(b[0], b[1], b[2]) + EncodeUnpadded(b[3..])
  }

  /** Four letters per full group, two or three for a final partial one. */
  lemma {:induction false} EncodeUnpaddedLength(b: seq<Byte>)
    ensures |EncodeUnpadded(b)| == (4 * |b| + 2) / 3
    decreases |b|
  {
    if |b| >= 3 {
      EncodeUnpaddedLength(b[3..]);
      DivBy3Shift(4, 4 * (|b| - 3) + 2);
    }
  }

  lemma DivBy3Shift(k: int, x: int)
    ensures (3 * k + x) / 3 == k + x / 3
  {
  }

  /** The `=` characters that complete the last quantum of `n` input bytes. */
  function Padding(n: nat): string
  {
    if n % 3 == 1 then "==" else if n % 3 == 2 then "=" else ""
  }

  /** Standard base64 with padding (section 4 of RFC 4648). */
  function Encode(b: seq<Byte>): (s: string)
    ensures |s| == 4 * ((|b| + 2) / 3)
    ensures |s| % 4 == 0
    ensures forall k :: 0 <= k < |s| ==> IsLetter(s[k]) || s[k] == '='
  {
    var u, p := EncodeUnpadded(b), Padding(|b|);
    EncodeUnpaddedLength(b);
    PaddedLength(|b|);
    assert forall k :: 0 <= k < |p| ==> p[k] == '=';
    assert forall k :: 0 <= k < |u + p| ==> (u + p)[k] == if k < |u| then u[k] else p[k - |u|];
    u + p
  }

  /** Unpadded letters plus padding fill whole groups of four. */
  lemma PaddedLength(n: nat)
    ensures (4 * n + 2) / 3 + |Padding(n)| == 4 * ((n + 2) / 3)
    ensures 4 * ((n + 2) / 3) % 4 == 0
  {
    var q := n / 3;
    var g := (n + 2) / 3;
    if n % 3 == 0 {
      DivBy3(4 * q, 2);
      DivBy3(q, 2);
    } else if n % 3 == 1 {
      DivBy3(4 * q + 2, 0);
      DivBy3(q + 1, 0);
    } else {
      DivBy3(4 * q + 3, 1);
      DivBy3(q + 1, 1);
    }
    MulFourMod(g);
  }

  lemma DivBy3(k: int, r: int)
    requires 0 <= r < 3
    ensures (3 * k + r) / 3 == k
  {
  }

  lemma MulFourMod(g: int)
    ensures 4 * g % 4 == 0
  {
  }

  // ---------------------------------------------------------------- decode

  predicate IsAsciiWhitespace(c: char)
  {
    c == '\t' || c == '\n' || c == '\U{000C}' || c == '\r' || c == ' '
  }

  /** `s` with every ASCII whitespace character removed, order kept. */
  function RemoveWhitespace(s: string): (r: string)
    ensures |r| <= |s|
    ensures forall k :: 0 <= k < |r| ==> !IsAsciiWhitespace(r[k])
    ensures forall c :: c in s && !IsAsciiWhitespace(c) ==> c in r
    ensures forall c :: c in r ==> c in s
    ensures (forall k :: 0 <= k < |s| ==> !IsAsciiWhitespace(s[k])) ==> r == s
    decreases |s|
  {
    if |s| == 0 then ""
    else (if IsAsciiWhitespace(s[0]) then "" else [s[0]]) + RemoveWhitespace(s[1..])
  }

  /** Drops one or two trailing `=` when the length is a multiple of four. */
  function RemovePadding(s: string): (r: string)
    ensures forall c :: c in s && c != '=' ==> c in r
  {
    if |s| % 4 == 0 && |s| >= 2 && s[|s| - 2] == '=' && s[|s| - 1] == '=' then s[..|s| - 2]
    else if |s| % 4 == 0 && |s| >= 1 && s[|s| - 1] == '=' then s[..|s| - 1]
    else s
  }

  /** The three bytes carried by four letters. */
  function DecodeQuad(c0: char, c1: char, c2: char, c3: char): (b: seq<Byte>)
    requires IsLetter(c0) && IsLetter(c1) && IsLetter(c2) && IsLetter(c3)
    ensures |b| == 3
  {
    [IndexOf(c0) * 4 + IndexOf(c1) / 16, IndexOf(c1) % 16 * 16 + IndexOf(c2) / 4,
     IndexOf(c2) % 4 * 64 + IndexOf(c3)]
  }

  /** The two bytes carried by a final group of three letters. */
  function DecodeTriple(c0: char, c1: char, c2: char): (b: seq<Byte>)
    requires IsLetter(c0) && IsLetter(c1) && IsLetter(c2)
    ensures |b| == 2
  {
    [IndexOf(c0) * 4 + IndexOf(c1) / 16, IndexOf(c1) % 16 * 16 + IndexOf(c2) / 4]
  }

  /** The one byte carried by a final group of two letters. */
  function DecodePair(c0: char, c1: char): (b: seq<Byte>)
    requires IsLetter(c0) && IsLetter(c1)
    ensures |b| == 1
  {
    [IndexOf(c0) * 4 + IndexOf(c1) / 16]
  }

  /** Reassembles bytes from letters: four letters give three bytes, a final
      two or three letters give one or two bytes. */
  function DecodeLetters(d: string): (b: seq<Byte>)
    requires |d| % 4 != 1
    requires AllLetters(d)
    ensures |b| == 3 * |d| / 4
    decreases |d|
  {
    if |d| == 0 then []
    else if |d| == 2 then DecodePair(d[0], d[1])
    else if |d| == 3 then DecodeTriple(d[0], d[1], d[2])
    else
      GroupLength(|d|);
      DecodeQuad(d[0], d[1], d[2], d[3]) + DecodeLetters(d[4..])
  }

  /** Dropping a group of four letters drops three bytes and keeps the
      remainder modulo four. */
  lemma GroupLength(n: int)
    requires n >= 4
    ensures 3 * n / 4 == 3 + 3 * (n - 4) / 4
    ensures n % 4 == (n - 4) % 4
  {
    var m := n - 4;
    assert 3 * n == 3 * m + 12;
  }

  /** Forgiving-base64 decode; `None` is the failure that makes `atob` throw. */
  function Decode(s: string): (r: Option<seq<Byte>>)
  {
    var d := RemovePadding(RemoveWhitespace(s));
    if |d| % 4 == 1 || !AllLetters(d) then None else Some(DecodeLetters(d))
  }

  // ---------------------------------------------------------------- btoa / atob

  /** `btoa`: throws (`None`) on a character code above 255, otherwise the
      base64 text of the string's character codes. */
  function Btoa(s: string): (r: Option<string>)
    ensures r.Some? <==> IsBinaryString(s)
    ensures r.Some? ==> |r.value| == 4 * ((|s| + 2) / 3)
  {
    if IsBinaryString(s) then Some(Encode(CharCodes(s))) else None
  }

  /** `atob`: throws (`None`) on malformed input, otherwise a binary string. */
  function Atob(s: string): (r: Option<string>)
    ensures r.Some? ==> IsBinaryString(r.value)
  {
    match Decode(s)
    case None => None
    case Some(b) => Some(BinaryString(b))
  }

  // ---------------------------------------------------------------- properties

  lemma SplitBy16(hi: int, lo: int)
    requires 0 <= lo < 16
    ensures (hi * 16 + lo) / 16 == hi && (hi * 16 + lo) % 16 == lo
  {
  }

  lemma SplitBy4(hi: int, lo: int)
    requires 0 <= lo < 4
    ensures (hi * 4 + lo) / 4 == hi && (hi * 4 + lo) % 4 == lo
  {
  }

  lemma TripleRoundTrip(b0: Byte, b1: Byte, b2: Byte)
    ensures var s := EncodeTriple(b0, b1, b2); DecodeQuad(s[0], s[1], s[2], s[3]) == [b0, b1, b2]
  {
    IndexOfLetter(b0 / 4);
    IndexOfLetter(b0 % 4 * 16 + b1 / 16);
    IndexOfLetter(b1 % 16 * 4 + b2 / 64);
    IndexOfLetter(b2 % 64);
    SplitBy16(b0 % 4, b1 / 16);
    SplitBy4(b1 % 16, b2 / 64);
  }

  lemma PairRoundTrip(b0: Byte, b1: Byte)
    ensures var s := EncodePair(b0, b1); DecodeTriple(s[0], s[1], s[2]) == [b0, b1]
  {
    IndexOfLetter(b0 / 4);
    IndexOfLetter(b0 % 4 * 16 + b1 / 16);
    IndexOfLetter(b1 % 16 * 4);
    SplitBy16(b0 % 4, b1 / 16);
    SplitBy4(b1 % 16, 0);
  }

  lemma SingleRoundTrip(b0: Byte)
    ensures var s := EncodeSingle(b0); DecodePair(s[0], s[1]) == [b0]
  {
    IndexOfLetter(b0 / 4);
    IndexOfLetter(b0 % 4 * 16);
    SplitBy16(b0 % 4, 0);
  }

  /** Four letters in front of a decodable run decode group by group. */
  lemma DecodeLettersPrefix(t: string, rest: string)
    requires |t| == 4 && AllLetters(t)
    requires |rest| % 4 != 1 && AllLetters(rest)
    ensures |t + rest| % 4 != 1 && AllLetters(t + rest)
    ensures DecodeLetters(t + rest) == DecodeQuad(t[0], t[1], t[2], t[3]) + DecodeLetters(rest)
  {
    var s := t + rest;
    assert s[4..] == rest;
    assert forall k :: 0 <= k < |s| ==> s[k] == if k < 4 then t[k] else rest[k - 4];
  }

  /** A decoded group in front of a decoded run. */
  lemma DecodeLettersCons(b: seq<Byte>, t: string, rest: string)
    requires |b| >= 3 && |t| == 4 && AllLetters(t)
    requires |rest| % 4 != 1 && AllLetters(rest)
    requires DecodeQuad(t[0], t[1], t[2], t[3]) == b[..3]
    requires DecodeLetters(rest) == b[3..]
    ensures |t + rest| % 4 != 1
    ensures DecodeLetters(t + rest) == b
  {
    DecodeLettersPrefix(t, rest);
    assert b[..3] + b[3..] == b;
  }

  /** One full group in front: the induction step of `DecodeLettersEncodeUnpadded`. */
  lemma DecodeLettersEncodeGroup(b: seq<Byte>)
    requires |b| >= 3
    requires |EncodeUnpadded(b[3..])| % 4 != 1
    requires DecodeLetters(EncodeUnpadded(b[3..])) == b[3..]
    ensures |EncodeUnpadded(b)| % 4 != 1
    ensures DecodeLetters(EncodeUnpadded(b)) == b
  {
    var t := EncodeTriple(b[0], b[1], b[2]);
    TripleRoundTrip(b[0], b[1], b[2]);
    assert [b[0], b[1], b[2]] == b[..3];
    DecodeLettersCons(b, t, EncodeUnpadded(b[3..]));
  }

  lemma {:induction false} DecodeLettersEncodeUnpadded(b: seq<Byte>)
    ensures |EncodeUnpadded(b)| % 4 != 1
    ensures DecodeLetters(EncodeUnpadded(b)) == b
    decreases |b|
  {
    if |b| == 1 {
      SingleRoundTrip(b[0]);
    } else if |b| == 2 {
      PairRoundTrip(b[0], b[1]);
    } else if |b| >= 3 {
      DecodeLettersEncodeUnpadded(b[3..]);
      DecodeLettersEncodeGroup(b);
    }
  }

  lemma EncodeHasNoWhitespace(b: seq<Byte>)
    ensures RemoveWhitespace(Encode(b)) == Encode(b)
  {
    var s := Encode(b);
    assert forall k :: 0 <= k < |s| ==> !IsAsciiWhitespace(s[k]);
  }

  lemma RemovePaddingOfEncode(b: seq<Byte>)
    ensures RemovePadding(Encode(b)) == EncodeUnpadded(b)
  {
    var u, p := EncodeUnpadded(b), Padding(|b|);
    assert Encode(b) == u + p;
    StripPadding(u, p);
  }

  /** Letters followed by zero, one or two `=` that fill whole groups of
      four lose exactly the `=`. */
  lemma StripPadding(u: string, p: string)
    requires AllLetters(u)
    requires p == "" || p == "=" || p == "=="
    requires |u + p| % 4 == 0
    ensures RemovePadding(u + p) == u
  {
    var s := u + p;
    if p == "==" {
      assert s[..|s| - 2] == u;
    } else if p == "=" {
      assert s[|s| - 2] == u[|u| - 1];
      assert s[..|s| - 1] == u;
    } else {
      assert s == u;
      assert |u| >= 1 ==> IsLetter(u[|u| - 1]);
    }
  }

  /** Decoding recovers exactly the encoded bytes. */
  lemma DecodeEncode(b: seq<Byte>)
    ensures Decode(Encode(b)) == Some(b)
  {
    EncodeHasNoWhitespace(b);
    RemovePaddingOfEncode(b);
    DecodeLettersEncodeUnpadded(b);
  }

  /** A character that is neither a letter, whitespace nor `=` makes the
      decode fail. */
  lemma DecodeRejectsForeignCharacter(s: string, k: nat)
    requires k < |s|
    requires !IsLetter(s[k]) && !IsAsciiWhitespace(s[k]) && s[k] != '='
    ensures Decode(s) == None
  {
    var d := RemovePadding(RemoveWhitespace(s));
    assert s[k] in s;
    assert s[k] in d;
    var j :| 0 <= j < |d| && d[j] == s[k];
    assert !AllLetters(d);
  }

  /** Two letters and two `=` are the text of a single byte. */
  lemma AtobOfPaddedPair(a: char, b: char)
    requires IsLetter(a) && IsLetter(b)
    ensures Atob([a, b, '=', '=']).Some? && |Atob([a, b, '=', '=']).value| == 1
  {
    var text := [a, b, '=', '='];
    PaddedPairHasNoWhitespace(a, b);
    assert text[..2] == [a, b];
    assert RemovePadding(text) == [a, b];
    LetterPair(a, b);
  }

  lemma PaddedPairHasNoWhitespace(a: char, b: char)
    requires IsLetter(a) && IsLetter(b)
    ensures RemoveWhitespace([a, b, '=', '=']) == [a, b, '=', '=']
  {
    var text := [a, b, '=', '='];
    assert forall k :: 0 <= k < |text| ==> !IsAsciiWhitespace(text[k]);
  }

  lemma LetterPair(a: char, b: char)
    requires IsLetter(a) && IsLetter(b)
    ensures AllLetters([a, b]) && |DecodeLetters([a, b])| == 1
  {
  }

  /** Letters alone whose count leaves one over in the last group of four
      make the decode fail. */
  lemma DecodeRejectsDanglingLetter(s: string)
    requires AllLetters(s)
    requires |s| % 4 == 1
    ensures Decode(s) == None
  {
    assert RemoveWhitespace(s) == s by {
      assert forall k :: 0 <= k < |s| ==> !IsAsciiWhitespace(s[k]);
    }
  }

  /** `atob` undoes `btoa` on every string `btoa` accepts. */
  lemma AtobBtoa(s: string)
    requires IsBinaryString(s)
    ensures Atob(Btoa(s).value) == Some(s)
  {
    DecodeEncode(CharCodes(s));
    BinaryStringOfCharCodes(s);
  }
}

=== FILE: bytes.dfy ===
/** Bytes and JavaScript "binary strings": strings whose every character code
    is a byte value, the currency of `btoa`, `atob`, `String.fromCharCode`
    and `charCodeAt`. */
module Bytes {

  type Byte = b: int | 0 <= b < 256

  /** Every character of `s` has a code below 256. */
  predicate IsBinaryString(s: string)
  {
    forall i :: 0 <= i < |s| ==> s[i] as int < 256
  }

  /** The string built by appending `String.fromCharCode(b)` for each byte `b`. */
  function BinaryString(bytes: seq<Byte>): (s: string)
    ensures |s| == |bytes|
    ensures IsBinaryString(s)
  {
    seq(|bytes|, i requires 0 <= i < |bytes| => bytes[i] as char)
  }

  /** The bytes read back with `charCodeAt(i)` for each index of a binary string. */
  function CharCodes(s: string): (bytes: seq<Byte>)
    requires IsBinaryString(s)
    ensures |bytes| == |s|
  {
    seq(|s|, i requires 0 <= i < |s| => s[i] as int)
  }

  /** Writing bytes as characters and reading the codes back gives the
      bytes. */
  lemma CharCodesOfBinaryString(bytes: seq<Byte>)
    ensures CharCodes(BinaryString(bytes)) == bytes
  {
    var codes := CharCodes(BinaryString(bytes));
    assert forall i :: 0 <= i < |bytes| ==> codes[i] == bytes[i];
  }

  /** Reading the codes of a binary string and writing them back as
      characters gives the string. */
  lemma BinaryStringOfCharCodes(s: string)
    requires IsBinaryString(s)
    ensures BinaryString(CharCodes(s)) == s
  {
    var chars := BinaryString(CharCodes(s));
    assert forall i :: 0 <= i < |s| ==> chars[i] == s[i];
  }
}

=== FILE: microphone.dfy ===
/** `getMicrophoneStream` of `src/utils/audio.ts`: ask for the microphone
    with echo cancellation, noise suppression and automatic gain; if that
    request is rejected for any reason, ask exactly once more for plain
    audio and let that answer stand. The platform's `getUserMedia` is an
    oracle from the requested constraints to a stream or a DOM error. */
module Microphone {
  import opened Wrappers

  /** Audio constraints of a `getUserMedia` call: the three processing
      features, or `{ audio: true }` with no preference. */
  datatype Constraints =
    | Processing(echoCancellation: bool, noiseSuppression: bool, autoGainControl: bool)
    | AnyAudio

  const Preferred: Constraints := Processing(true, true, true)
  const Plain: Constraints := AnyAudio

  /** An acquired media stream, identified opaquely. */
  datatype Stream = Stream(id: nat)

  /** A rejection: the DOMException's `name` and `message`. */
  datatype DomError = DomError(name: string, message: string)

  /** The requests made, in order, and the final answer. */
  datatype Acquisition = Acquisition(requests: seq<Constraints>, result: Result<Stream, DomError>)

  function GetMicrophoneStream(getUserMedia: Constraints -> Result<Stream, DomError>): (a: Acquisition)
    ensures a.requests == [Preferred] || a.requests == [Preferred, Plain]
    ensures |a.requests| == 2 <==> getUserMedia(Preferred).Err?
    ensures a.result.Ok? <==> getUserMedia(Preferred).Ok? || getUserMedia(Plain).Ok?
    ensures getUserMedia(Preferred).Ok? ==> a.result == getUserMedia(Preferred)
    ensures getUserMedia(Preferred).Err? ==> a.result == getUserMedia(Plain)
  {
    match getUserMedia(Preferred)
    case Ok(stream) => Acquisition([Preferred], Ok(stream))
    case Err(_) => Acquisition([Preferred, Plain], getUserMedia(Plain))
  }
}

=== FILE: playback.dfy ===
/** `AudioStreamer` of `src/utils/audio.ts`: gapless scheduling of decoded
    chunks on an output clock. The output context is reduced to whether one
    is held; the clock reading of that context (`currentTime`) is passed in
    as `now`. A chunk is scheduled at the later of the cursor and the clock,
    and the cursor moves to that chunk's end. */
module Playback {
  import opened Wrappers
  import opened AudioCodec
  import Base64

  type SampleRate = r: int | r > 0 witness 24000

  datatype AudioStreamer = AudioStreamer(hasContext: bool, nextStartTime: real, sampleRate: SampleRate)

  /** A buffer handed to the output device: it starts playing at `start`. */
  datatype Scheduled = Scheduled(start: real, samples: seq<real>)

  /** Length in seconds of `frames` samples (`AudioBuffer.duration`). */
  function Duration(frames: nat, rate: SampleRate): (d: real)
    ensures d >= 0.0
    ensures frames > 0 ==> d > 0.0
  {
    frames as real / rate as real
  }

  /** Time at which a scheduled buffer finishes. */
  function End(b: Scheduled, rate: SampleRate): real
  {
    b.start + Duration(|b.samples|, rate)
  }

  /** What one `addChunk` call does: nothing without a context, a throw, or a
      scheduled buffer together with the advanced streamer. */
  datatype ChunkOutcome =
    | Ignored
    | Failed(error: ChunkError)
    | Played(streamer: AudioStreamer, buffer: Scheduled)

  /** `new AudioStreamer(sampleRate)`. */
  function Create(sampleRate: SampleRate): (st: AudioStreamer)
    ensures !st.hasContext && st.nextStartTime == 0.0 && st.sampleRate == sampleRate
  {
    AudioStreamer(false, 0.0, sampleRate)
  }

  /** `start`: a fresh output context; the cursor is set to its clock. */
  function Start(st: AudioStreamer, now: real): (r: AudioStreamer)
    ensures r.hasContext && r.nextStartTime == now && r.sampleRate == st.sampleRate
  {
    st.(hasContext := true, nextStartTime := now)
  }

  /** `stop`: the context, if any, is closed and dropped; the cursor stays. */
  function Stop(st: AudioStreamer): (r: AudioStreamer)
    ensures !r.hasContext
    ensures r.nextStartTime == st.nextStartTime && r.sampleRate == st.sampleRate
  {
    st.(hasContext := false)
  }

  /** Stopping twice is stopping once. */
  lemma StopIdempotent(st: AudioStreamer)
    ensures Stop(Stop(st)) == Stop(st)
  {
  }

  /** `addChunk`: decode, refuse an empty buffer, schedule at the later of
      cursor and clock, advance the cursor by the buffer's duration. */
  function AddChunk(st: AudioStreamer, data: string, now: real): (o: ChunkOutcome)
    ensures o.Ignored? <==> !st.hasContext
    ensures o.Failed? <==> st.hasContext && (DecodeChunk(data).Err? || DecodeChunk(data).value == [])
    ensures o.Failed? ==> o.error == if DecodeChunk(data).Err? then DecodeChunk(data).error else EmptyBuffer
    ensures o.Played? ==> && o.buffer.samples == DecodeChunk(data).value
                          && o.buffer.start >= now
                          && o.buffer.start >= st.nextStartTime
                          && (o.buffer.start == now || o.buffer.start == st.nextStartTime)
                          && o.streamer == st.(nextStartTime := End(o.buffer, st.sampleRate))
                          && o.streamer.nextStartTime > o.buffer.start
  {
    if !st.hasContext then Ignored
    else match DecodeChunk(data)
      case Err(e) => Failed(e)
      case Ok(samples) =>
        if |samples| == 0 then Failed(EmptyBuffer)
        else
          var start := Max(st.nextStartTime, now);
          var buffer := Scheduled(start, samples);
          Played(st.(nextStartTime := End(buffer, st.sampleRate)), buffer)
  }

  /** A chunk together with the clock reading when it arrived. */
  datatype Arrival = Arrival(data: string, now: real)

  /** A run of `addChunk` calls; a call that is ignored or throws leaves the
      streamer as it was. */
  function Feed(st: AudioStreamer, arrivals: seq<Arrival>): (r: (AudioStreamer, seq<Scheduled>))
    ensures r.0.hasContext == st.hasContext && r.0.sampleRate == st.sampleRate
    decreases |arrivals|
  {
    if |arrivals| == 0 then (st, [])
    else match AddChunk(st, arrivals[0].data, arrivals[0].now)
      case Played(next, b) =>
        var rest := Feed(next, arrivals[1..]);
        (rest.0, [b] + rest.1)
      case _ => Feed(st, arrivals[1..])
  }

  /** The chunk decodes to at least one sample. */
  predicate Playable(data: string)
  {
    DecodeChunk(data).Ok? && DecodeChunk(data).value != []
  }

  // ---------------------------------------------------------------- properties

  /** A run that schedules nothing leaves the streamer as it was. */
  lemma {:induction false} FeedEmptyKeepsCursor(st: AudioStreamer, arrivals: seq<Arrival>)
    ensures Feed(st, arrivals).1 == [] ==> Feed(st, arrivals).0 == st
    decreases |arrivals|
  {
    if |arrivals| > 0 {
      var o := AddChunk(st, arrivals[0].data, arrivals[0].now);
      if !o.Played? {
        FeedEmptyKeepsCursor(st, arrivals[1..]);
      }
    }
  }

  /** The run invariants: the cursor never moved back, every buffer starts at
      or after the initial cursor and ends by the final one, consecutive
      buffers do not overlap, and the cursor rests at the last buffer's end. */
  ghost predicate OrderedRun(first: AudioStreamer, last: AudioStreamer, buffers: seq<Scheduled>)
  {
    && last.nextStartTime >= first.nextStartTime
    && (forall j :: 0 <= j < |buffers| ==> buffers[j].start >= first.nextStartTime)
    && (forall j :: 0 <= j < |buffers| ==> End(buffers[j], first.sampleRate) <= last.nextStartTime)
    && (forall j :: 0 <= j < |buffers| - 1 ==> buffers[j + 1].start >= End(buffers[j], first.sampleRate))
    && (|buffers| > 0 ==> last.nextStartTime == End(buffers[|buffers| - 1], first.sampleRate))
  }

  /** Whatever arrives, the cursor never moves back, every buffer starts at
      or after the cursor held before the run, buffers never overlap and
      play in call order, and the cursor ends at the last buffer's end. */
  lemma {:induction false} FeedMonotone(st: AudioStreamer, arrivals: seq<Arrival>)
    ensures OrderedRun(st, Feed(st, arrivals).0, Feed(st, arrivals).1)
    decreases |arrivals|
  {
    if |arrivals| > 0 {
      var o := AddChunk(st, arrivals[0].data, arrivals[0].now);
      if o.Played? {
        var next, b := o.streamer, o.buffer;
        FeedMonotone(next, arrivals[1..]);
        FeedEmptyKeepsCursor(next, arrivals[1..]);
        var rest := Feed(next, arrivals[1..]);
        assert Feed(st, arrivals) == (rest.0, [b] + rest.1);
        OrderedRunCons(st, next, b, rest.0, rest.1);
      } else {
        FeedMonotone(st, arrivals[1..]);
        assert Feed(st, arrivals) == Feed(st, arrivals[1..]);
      }
    }
  }

  /** A buffer scheduled at or after the cursor, in front of an ordered run
      that starts from the cursor it leaves, extends the run. */
  lemma OrderedRunCons(st: AudioStreamer, next: AudioStreamer, b: Scheduled, last: AudioStreamer, rest: seq<Scheduled>)
    requires b.start >= st.nextStartTime
    requires next == st.(nextStartTime := End(b, st.sampleRate))
    requires OrderedRun(next, last, rest)
    requires rest == [] ==> last == next
    ensures OrderedRun(st, last, [b] + rest)
  {
    var buffers := [b] + rest;
    assert End(b, st.sampleRate) >= b.start;
    forall j | 0 <= j < |buffers| - 1
      ensures buffers[j + 1].start >= End(buffers[j], st.sampleRate)
    {
      if j > 0 {
        assert buffers[j] == rest[j - 1] && buffers[j + 1] == rest[j];
      }
    }
    if |rest| > 0 {
      assert buffers[|buffers| - 1] == rest[|rest| - 1];
    }
  }

  /** The buffers are the arrivals' decoded samples, in arrival order, the
      first starting at `start` and each next one where the previous ends. */
  ghost predicate BackToBack(start: real, rate: SampleRate, arrivals: seq<Arrival>, buffers: seq<Scheduled>)
  {
    && |buffers| == |arrivals|
    && (|buffers| > 0 ==> buffers[0].start == start)
    && (forall j :: 0 <= j < |buffers| ==> DecodeChunk(arrivals[j].data) == Ok(buffers[j].samples))
    && (forall j :: 0 <= j < |buffers| - 1 ==> buffers[j + 1].start == End(buffers[j], rate))
  }

  /** Every chunk arrives before the clock has passed the cursor left by
      the calls before it. */
  ghost predicate NoUnderrun(st: AudioStreamer, arrivals: seq<Arrival>)
  {
    forall j :: 0 <= j < |arrivals| ==> arrivals[j].now <= Feed(st, arrivals[..j]).0.nextStartTime
  }

  /** Past a first call that schedules a buffer, the rest of the run is
      still without underrun, measured from the streamer that call leaves. */
  lemma NoUnderrunTail(st: AudioStreamer, arrivals: seq<Arrival>, next: AudioStreamer, b: Scheduled)
    requires |arrivals| > 0 && AddChunk(st, arrivals[0].data, arrivals[0].now) == Played(next, b)
    requires NoUnderrun(st, arrivals)
    ensures NoUnderrun(next, arrivals[1..])
  {
    var tail := arrivals[1..];
    forall j | 0 <= j < |tail|
      ensures tail[j].now <= Feed(next, tail[..j]).0.nextStartTime
    {
      assert tail[j] == arrivals[j + 1];
      assert arrivals[..j + 1][1..] == tail[..j];
      FeedAfterPlayed(st, arrivals[..j + 1]);
    }
  }

  /** A stream without underrun: chunks that all decode, each arriving
      before the clock has passed the cursor left by the calls before it
      (for instance while the previous chunk still plays), play back to
      back, the first at the cursor and each next one exactly where the
      previous one ends. */
  lemma {:induction false} BurstIsGapless(st: AudioStreamer, arrivals: seq<Arrival>)
    requires st.hasContext
    requires forall j :: 0 <= j < |arrivals| ==> Playable(arrivals[j].data)
    requires NoUnderrun(st, arrivals)
    ensures BackToBack(st.nextStartTime, st.sampleRate, arrivals, Feed(st, arrivals).1)
    decreases |arrivals|
  {
    if |arrivals| > 0 {
      var o := AddChunk(st, arrivals[0].data, arrivals[0].now);
      assert Playable(arrivals[0].data);
      assert arrivals[..0] == [];
      assert o.Played?;
      var next, b := o.streamer, o.buffer;
      assert b.start == st.nextStartTime;
      var tail := arrivals[1..];
      forall j | 0 <= j < |tail|
        ensures Playable(tail[j].data)
      {
        assert tail[j] == arrivals[j + 1];
      }
      NoUnderrunTail(st, arrivals, next, b);
      BurstIsGapless(next, tail);
      var rest := Feed(next, tail);
      var buffers := [b] + rest.1;
      assert Feed(st, arrivals).1 == buffers;
      forall j | 0 <= j < |buffers|
        ensures DecodeChunk(arrivals[j].data) == Ok(buffers[j].samples)
      {
        if j > 0 {
          assert buffers[j] == rest.1[j - 1] && arrivals[j] == tail[j - 1];
        }
      }
      forall j | 0 <= j < |buffers| - 1
        ensures buffers[j + 1].start == End(buffers[j], st.sampleRate)
      {
        if j > 0 {
          assert buffers[j] == rest.1[j - 1] && buffers[j + 1] == rest.1[j];
        }
      }
    }
  }

  /** A run whose first call schedules `b` continues from the streamer that
      call leaves. */
  lemma FeedAfterPlayed(st: AudioStreamer, arrivals: seq<Arrival>)
    requires |arrivals| > 0
    ensures var o := AddChunk(st, arrivals[0].data, arrivals[0].now);
      o.Played? ==> Feed(st, arrivals) == (Feed(o.streamer, arrivals[1..]).0, [o.buffer] + Feed(o.streamer, arrivals[1..]).1)
  {
  }

  /** With a context held, every chunk that decodes to samples is scheduled,
      in arrival order, never before the clock reading at its arrival. */
  lemma {:induction false} FeedSchedulesEveryPlayableChunk(st: AudioStreamer, arrivals: seq<Arrival>)
    requires st.hasContext
    requires forall j :: 0 <= j < |arrivals| ==> Playable(arrivals[j].data)
    ensures |Feed(st, arrivals).1| == |arrivals|
    ensures forall j :: 0 <= j < |arrivals| ==> && DecodeChunk(arrivals[j].data) == Ok(Feed(st, arrivals).1[j].samples)
                                                && Feed(st, arrivals).1[j].start >= arrivals[j].now
    decreases |arrivals|
  {
    if |arrivals| > 0 {
      var o := AddChunk(st, arrivals[0].data, arrivals[0].now);
      assert Playable(arrivals[0].data);
      var next, b := o.streamer, o.buffer;
      var tail := arrivals[1..];
      forall j | 0 <= j < |tail|
        ensures Playable(tail[j].data)
      {
        assert tail[j] == arrivals[j + 1];
      }
      FeedSchedulesEveryPlayableChunk(next, tail);
      FeedAfterPlayed(st, arrivals);
      ScheduledAsArrivedCons(arrivals, b, Feed(next, tail).1);
    }
  }

  /** A buffer holding the first arrival's samples, no earlier than its
      clock, in front of buffers that match the later arrivals one by one,
      matches the whole run. */
  lemma ScheduledAsArrivedCons(arrivals: seq<Arrival>, b: Scheduled, rest: seq<Scheduled>)
    requires |arrivals| > 0 && |rest| == |arrivals| - 1
    requires DecodeChunk(arrivals[0].data) == Ok(b.samples) && b.start >= arrivals[0].now
    requires forall j :: 0 <= j < |rest| ==> && DecodeChunk(arrivals[1..][j].data) == Ok(rest[j].samples)
                                              && rest[j].start >= arrivals[1..][j].now
    ensures forall j :: 0 <= j < |arrivals| ==> && DecodeChunk(arrivals[j].data) == Ok(([b] + rest)[j].samples)
                                                 && ([b] + rest)[j].start >= arrivals[j].now
  {
    var buffers := [b] + rest;
    forall j | 0 <= j < |arrivals|
      ensures DecodeChunk(arrivals[j].data) == Ok(buffers[j].samples) && buffers[j].start >= arrivals[j].now
    {
      if j > 0 {
        assert buffers[j] == rest[j - 1] && arrivals[j] == arrivals[1..][j - 1];
      }
    }
  }

  /** A late chunk (the clock has passed the cursor) starts at once. */
  lemma LateChunkPlaysNow(st: AudioStreamer, data: string, now: real)
    requires st.hasContext && Playable(data) && now > st.nextStartTime
    ensures AddChunk(st, data, now).Played? && AddChunk(st, data, now).buffer.start == now
  {
  }

  /** A chunk `atob` rejects makes `addChunk` throw: a lone letter leaves
      one letter over in its group of four. */
  lemma DanglingLetterChunkThrows(st: AudioStreamer, now: real)
    requires st.hasContext
    ensures AddChunk(st, "A", now) == Failed(InvalidCharacter)
  {
    Base64.DecodeRejectsDanglingLetter("A");
  }

  /** A chunk of one byte makes `Int16Array` throw: "AA==" decodes to the
      single byte 0. */
  lemma OddLengthChunkThrows(st: AudioStreamer, now: real)
    requires st.hasContext
    ensures AddChunk(st, "AA==", now) == Failed(OddByteLength)
  {
    Base64.AtobOfPaddedPair('A', 'A');
  }

  /** Two 2048-sample chunks arriving together at 24 kHz: the second starts
      2048/24000 s (about 85.3 ms) after the first. */
  lemma TwoChunkBurst(st: AudioStreamer, a: string, b: string, now: real)
    requires st.hasContext && st.sampleRate == 24000 && now <= st.nextStartTime
    requires DecodeChunk(a).Ok? && |DecodeChunk(a).value| == 2048
    requires DecodeChunk(b).Ok? && |DecodeChunk(b).value| == 2048
    ensures var buffers := Feed(st, [Arrival(a, now), Arrival(b, now)]).1;
      |buffers| == 2 && buffers[1].start == buffers[0].start + 2048.0 / 24000.0
  {
    var arrivals := [Arrival(a, now), Arrival(b, now)];
    var first := AddChunk(st, a, now);
    assert first.Played? && first.buffer.start == st.nextStartTime;
    var second := AddChunk(first.streamer, b, now);
    assert second.Played? && second.buffer.start == End(first.buffer, 24000);
    assert arrivals[1..] == [Arrival(b, now)];
    assert Feed(first.streamer, arrivals[1..]).1 == [second.buffer];
    assert Feed(st, arrivals).1 == [first.buffer, second.buffer];
  }
}

=== FILE: wrappers.dfy ===
/** Failure-carrying values used throughout the model: an absent reference
    (`null` / `undefined` in the application) and an operation that either
    yields a value or throws. */
module Wrappers {

  datatype Option<+T> = None | Some(value: T)

  datatype Result<+T, +E> = Ok(value: T) | Err(error: E)
}
